=== FILE: README.md ===
# MassTransit receive-side core, modelled in Dafny

This project models three pieces of MassTransit's message-ingestion and
bus-configuration code as pure Dafny functions over immutable records, and
proves properties of them.

- **HTTP receive adapter** (`HttpConsumerAction`, module `HttpConsumerAction`,
  file `http_consumer_action.dfy`). It covers the delivery counters, the
  pending-delivery map keyed by delivery tag, the shutdown flag and the
  one-shot drain signal. It also covers the mapping from a delivery's outcome
  to the response status and body, and the order of the observer and `next()`
  calls.
  - `Handle` is split into `Begin` and `Finish`. `Begin` covers the
    increments and `TryAdd`. `Finish` covers the try, catch and finally
    blocks and the last `next()`. Splitting it this way lets deliveries
    interleave with each other and with `Stop`.
  - `System`/`Step`/`Run` interleave these steps atomically. The invariants
    are proved over every run.
- **Kafka subscription** (`KafkaConsumer`, module `KafkaConsumer`, file
  `kafka_consumer.dfy`).
  - One run of the pull/commit loop is driven by a script. For each pass the
    script says what `Consume` yields and whether `Handle` and `Commit` throw.
  - The run produces a trace of `Consume`/`Handle`/`Commit` calls and how the
    loop ended.
  - The module also models the value `Subscribe` returns, and `Unsubscribe`'s
    cleanup sequence with its exception containment.
- **Endpoint configuration** (`BusRegistrationContext`, module
  `BusRegistration`, file `bus_registration_context.dfy`).
  - `ConfigureEndpoints` filters the registrations, groups them by endpoint
    name, unions the names and subtracts compensate names, then picks one
    definition per name by priority. The result is the list of
    `ReceiveEndpoint` and configure calls.
  - The module also models the hook cache of `GetConfigureReceiveEndpoints`
    and `ConfigureReceiveEndpoint.Configure`.
  - Endpoint names, the registration filter and `WasConfigured` are abstract
    functions in an `Env` record.
- `sequences.dfy` (module `Sequences`) gives the order-preserving LINQ
  operators the registration code uses: `Where`, `Select`, `SelectMany`,
  `Distinct`, `Union` and `Except`. `wrappers.dfy` gives `Option`.

Three behaviours of the code are easy to misread. The model follows the code
as written:

- The shutdown branch of `Handle` does not return. A request that arrives
  during shutdown is answered 503 "SHUTTING DOWN", and is then still
  dispatched (`HttpConsumerAction.ShutdownDoesNotReturn`).
- A `PostReceive` that throws is handled by the catch block, so
  `ReceiveFault` fires as well.
- `Unsubscribe` does not call the client's `Unsubscribe`. It closes and
  disposes the client only after awaiting the loop succeeded. A loop that
  faulted or was canceled makes the await throw, and the rest is skipped.

## Model

| member | source | states |
|---|---|---|
| HttpConsumerAction.RaiseMax | src/MassTransit.HttpTransport/HttpConsumerAction.cs:86-88 | after raising, the maximum is at least the old maximum and at least the new pending count, and it is one of the two |
| HttpConsumerAction.Track | src/MassTransit.HttpTransport/HttpConsumerAction.cs:84-101 | both counters grow by exactly one, the maximum covers the new pending count, the tag is in the map, and an existing entry for a duplicate tag is kept |
| HttpConsumerAction.Begin | src/MassTransit.HttpTransport/HttpConsumerAction.cs:73-101 | Handle ends before any bookkeeping only when shutting down and that branch's `next()` throws; otherwise the delivery is tracked |
| HttpConsumerAction.Release | src/MassTransit.HttpTransport/HttpConsumerAction.cs:124-137 | the finally block removes the tag, decrements the pending count once, leaves every other entry alone, and sets the drain signal exactly when the count reaches 0 during shutdown or it was already set |
| HttpConsumerAction.Finish | src/MassTransit.HttpTransport/HttpConsumerAction.cs:95-139 | the finally cleanup always runs; PreReceive always runs; ReceiveFault fires exactly when the try block threw, including a throwing PostReceive; PostReceive runs only on the success path or as the throwing call; the drain signal is raised exactly when the count hits 0 during shutdown |
| HttpConsumerAction.Handle | src/MassTransit.HttpTransport/HttpConsumerAction.cs:73-140 | an uninterrupted Handle counts one delivery, leaves the pending count as it found it, raises the maximum above it, and leaves the tag out of the map; it faults exactly when an exception escapes |
| HttpConsumerAction.TriedPrefix | src/MassTransit.HttpTransport/HttpConsumerAction.cs:103-114 | the try block's calls are the success path up to and including the call that throws |
| HttpConsumerAction.FinishOrder | src/MassTransit.HttpTransport/HttpConsumerAction.cs:103-139 | the calls run in order: the try block's calls up to the throwing one, ReceiveFault right after it, then status 500 and "ERROR" unless the observer threw; the last `next()` comes last unless an exception escapes, and the drain signal comes right before it |
| HttpConsumerAction.HandleOrder | src/MassTransit.HttpTransport/HttpConsumerAction.cs:73-140 | the same order for the whole Handle call, after the shutdown reply when shutting down |
| HttpConsumerAction.TriedNextCount | src/MassTransit.HttpTransport/HttpConsumerAction.cs:103-114 | the try block calls `next()` once exactly when it reached the 202 response |
| HttpConsumerAction.HandleResponse | src/MassTransit.HttpTransport/HttpConsumerAction.cs:77-123 | the response equals the status and body each outcome gets, defined separately by cases: 202 "DELIVERED", 500 "ERROR" after a fault, the shutdown text first when shutting down, and a 503 overwritten whenever dispatch reaches a status |
| HttpConsumerAction.HandleBodyText | src/MassTransit.HttpTransport/HttpConsumerAction.cs:77-123 | the body reads "SHUTTING DOWN" only during shutdown, then "DELIVERED" only when the send completed, then "ERROR" only when the catch block wrote it |
| HttpConsumerAction.NextCalls | src/MassTransit.HttpTransport/HttpConsumerAction.cs:77-139 | `next()` runs once in the shutdown branch, once on the success path and once after the finally block unless the catch block throws |
| HttpConsumerAction.PreambleNextCount | src/MassTransit.HttpTransport/HttpConsumerAction.cs:77-82 | the shutdown branch calls `next()` exactly once, and only during shutdown |
| HttpConsumerAction.Stop | src/MassTransit.HttpTransport/HttpConsumerAction.cs:142-149 | Stop always sets the shutdown flag, waits exactly when deliveries are pending, and changes nothing else |
| HttpConsumerAction.AwaitDrain | src/MassTransit.HttpTransport/HttpConsumerAction.cs:149-163 | the wait ends drained exactly when the signal is set, and times out only without it; a timeout is an outcome, never an exception |
| HttpConsumerAction.Step | src/MassTransit.HttpTransport/HttpConsumerAction.cs:73-163 | an arrival appends its delivery unless the shutdown branch's `next()` threw, a completion removes one delivery in flight or does nothing, Stop sets the flag and waits exactly when deliveries are pending, and a wake-up ends a waiting Stop drained exactly when the signal is set; each step leaves the other parts alone |
| HttpConsumerAction.StepValid | src/MassTransit.HttpTransport/HttpConsumerAction.cs:84-136 | every step keeps the pending count equal to the deliveries in flight and below the maximum, and keeps every map entry backed by one; the maximum, the delivery count, the shutdown flag and the signal never go back |
| HttpConsumerAction.ArriveValid | src/MassTransit.HttpTransport/HttpConsumerAction.cs:84-101 | a dispatched arrival keeps the count equal to the deliveries in flight, and its tag is backed by the new delivery |
| HttpConsumerAction.CompleteValid | src/MassTransit.HttpTransport/HttpConsumerAction.cs:124-136 | a completion keeps the count equal to the deliveries in flight, and every remaining entry is backed by a delivery still in flight |
| HttpConsumerAction.RunValid | src/MassTransit.HttpTransport/HttpConsumerAction.cs:84-136 | the same holds after any sequence of arrivals, completions and stops |
| HttpConsumerAction.StepExact | src/MassTransit.HttpTransport/HttpConsumerAction.cs:97-127 | with fresh tags, the pending map holds exactly the tags of the deliveries in flight |
| HttpConsumerAction.DrainAfterAll | src/MassTransit.HttpTransport/HttpConsumerAction.cs:129-136 | once shutting down, completing every delivery in flight sets the drain signal |
| HttpConsumerAction.StopDrainsInFlight | src/MassTransit.HttpTransport/HttpConsumerAction.cs:129-163 | a Stop that waits on one in-flight delivery ends drained once it completes, even if the timer fires too |
| HttpConsumerAction.ShutdownDoesNotReturn | src/MassTransit.HttpTransport/HttpConsumerAction.cs:77-84 | a request arriving during shutdown is still counted and PreReceive runs; its final status is not 503 unless it faulted before 202 and the ReceiveFault observer also threw |
| HttpConsumerAction.RaiseMaxAsWritten | src/MassTransit.HttpTransport/HttpConsumerAction.cs:87-88 | the compare-exchange loop as written starts from the old maximum and ends at or above the pending count |
| HttpConsumerAction.AsWrittenLosesRaise | src/MassTransit.HttpTransport/HttpConsumerAction.cs:87-88 | a racing raise to 5 is overwritten by 3, so the recorded maximum decreases |
| HttpConsumerAction.RaiseMaxCorrected | src/MassTransit.HttpTransport/HttpConsumerAction.cs:87-88 | retrying with the value the loop compared as comparand ends at or above both the pending count and a racing raise, and never decreases |
| HttpConsumerAction.CorrectedIsAtomicRaise | src/MassTransit.HttpTransport/HttpConsumerAction.cs:86-88 | without contention, the corrected loop ends where the atomic raise does |
| KafkaConsumer.Body | src/Transports/MassTransit.KafkaIntegration/Subscriptions/KafkaConsumer.cs:46-62 | a pass starts with Consume; Handle of the consumed record comes second; it commits only as its third call, right after handling that record, when Handle completed and auto-commit is off, and always commits then; a throwing Consume ends it; the pass throws what Consume, Handle or Commit threw, in that order of precedence |
| KafkaConsumer.Loop | src/Transports/MassTransit.KafkaIntegration/Subscriptions/KafkaConsumer.cs:43-63 | the trace is the passes' calls in order; a fault comes from the last pass's non-swallowed exception and no earlier pass threw one; an exit happens only at a cancellation test |
| KafkaConsumer.PullLoop | src/Transports/MassTransit.KafkaIntegration/Subscriptions/KafkaConsumer.cs:40-64 | the run faults exactly when its last pass throws something other than a cancellation on the loop's own token; it exits exactly at the first cancelled head test otherwise |
| KafkaConsumer.StartLoop | src/Transports/MassTransit.KafkaIntegration/Subscriptions/KafkaConsumer.cs:40-64 | the loop's body does not start, and makes no call, exactly when the token given to Task.Run was cancelled first; otherwise the run is the loop's run |
| KafkaConsumer.SwallowedCancelEndsRun | src/Transports/MassTransit.KafkaIntegration/Subscriptions/KafkaConsumer.cs:43-57 | in a script the source can produce, a pass whose Consume throws on the loop's token is the last pass, and the loop exits without faulting |
| KafkaConsumer.ConsumeCount | src/Transports/MassTransit.KafkaIntegration/Subscriptions/KafkaConsumer.cs:48 | every pass calls Consume exactly once |
| KafkaConsumer.ConsumesBeforeCancellation | src/Transports/MassTransit.KafkaIntegration/Subscriptions/KafkaConsumer.cs:43-48 | there are no more Consume calls than head tests that saw no cancellation |
| KafkaConsumer.AutoCommitNeverCommits | src/Transports/MassTransit.KafkaIntegration/Subscriptions/KafkaConsumer.cs:52-53 | with auto-commit on, no Commit is ever issued |
| KafkaConsumer.CommitFollowsHandle | src/Transports/MassTransit.KafkaIntegration/Subscriptions/KafkaConsumer.cs:48-53 | every Commit(o) comes right after Handle(o), which comes right after a Consume |
| KafkaConsumer.CommitsAreCommittable | src/Transports/MassTransit.KafkaIntegration/Subscriptions/KafkaConsumer.cs:48-53 | the committed offsets are exactly the consumed records whose Handle completed, in consumption order, when auto-commit is off |
| KafkaConsumer.FirstFatalEndsRun | src/Transports/MassTransit.KafkaIntegration/Subscriptions/KafkaConsumer.cs:58-62 | the first pass that throws a non-swallowed exception before cancellation ends the run as faulted, with no further passes |
| KafkaConsumer.CancelDuringConsumeExits | src/Transports/MassTransit.KafkaIntegration/Subscriptions/KafkaConsumer.cs:43-57 | a cancellation raised on the loop's own token inside Consume is swallowed, and the loop exits without faulting |
| KafkaConsumer.OuterCancellationFaults | src/Transports/MassTransit.KafkaIntegration/Subscriptions/KafkaConsumer.cs:50-61 | a cancellation on the outer token raised by Handle ends the loop with that exception, and the record is not committed |
| KafkaConsumer.FaultingPassEnds | src/Transports/MassTransit.KafkaIntegration/Subscriptions/KafkaConsumer.cs:55-62 | after passes that threw nothing fatal, a pass that throws something other than a cancellation on the loop's token ends the run faulted with that exception, its calls last in the trace |
| KafkaConsumer.HandleErrorFaults | src/Transports/MassTransit.KafkaIntegration/Subscriptions/KafkaConsumer.cs:50-61 | a Handle that throws an ordinary exception ends the run faulted right after Handle, with no Commit |
| KafkaConsumer.CommitErrorFaults | src/Transports/MassTransit.KafkaIntegration/Subscriptions/KafkaConsumer.cs:52-61 | a Commit that throws an ordinary exception ends the run faulted right after that Commit |
| KafkaConsumer.Subscribe | src/Transports/MassTransit.KafkaIntegration/Subscriptions/KafkaConsumer.cs:66-69 | the client subscribes once; the loop's task is returned only if already completed, otherwise a completed task |
| KafkaConsumer.SubscribeReportsRun | src/Transports/MassTransit.KafkaIntegration/Subscriptions/KafkaConsumer.cs:40-69 | after the loop's run, Subscribe returns a faulted task exactly when the loop rethrew an ordinary exception, a canceled one exactly when the body never started or a cancellation not on the loop's token escaped, and a completed task otherwise |
| KafkaConsumer.LoopTask | src/Transports/MassTransit.KafkaIntegration/Subscriptions/KafkaConsumer.cs:40-64 | the loop's task completes exactly when the loop ended or its body never started; it ran to completion exactly when the loop exited, was canceled exactly when the body never started or a cancellation escaped, and faulted exactly when another exception escaped |
| KafkaConsumer.RunCleanup | src/Transports/MassTransit.KafkaIntegration/Subscriptions/KafkaConsumer.cs:75-90 | the steps run in order up to and including the first that throws; an exception is logged exactly when some step throws; otherwise all steps run |
| KafkaConsumer.Unsubscribe | src/Transports/MassTransit.KafkaIntegration/Subscriptions/KafkaConsumer.cs:72-91 | cancel always runs, the steps are a prefix of cancel, await, close, dispose, dispose; the client is closed only after a loop that ran to completion |
| KafkaConsumer.FaultedLoopSkipsRelease | src/Transports/MassTransit.KafkaIntegration/Subscriptions/KafkaConsumer.cs:79-90 | after a faulted loop, Unsubscribe cancels, stops at the await and logs; it neither closes nor disposes the client |
| KafkaConsumer.CleanUnsubscribe | src/Transports/MassTransit.KafkaIntegration/Subscriptions/KafkaConsumer.cs:79-85 | with nothing throwing, all five steps run and nothing is logged |
| KafkaConsumer.UnsubscribeAfterRun | src/Transports/MassTransit.KafkaIntegration/Subscriptions/KafkaConsumer.cs:40-83 | after a finished run of the loop, Unsubscribe closes the client only if the loop exited at a cancellation test, not when it faulted, was canceled, or never started |
| KafkaConsumer.NotStartedSkipsRelease | src/Transports/MassTransit.KafkaIntegration/Subscriptions/KafkaConsumer.cs:40-90 | when the loop's body never started, Unsubscribe cancels, stops at the await and logs; it neither closes nor disposes the client |
| Sequences.Filter | src/MassTransit/Configuration/Registration/BusRegistrationContext.cs:53 | `Where` keeps exactly the elements satisfying the predicate |
| Sequences.Distinct | src/MassTransit/Configuration/Registration/BusRegistrationContext.cs:104-110 | the result has no duplicates and the same elements |
| Sequences.Union | src/MassTransit/Configuration/Registration/BusRegistrationContext.cs:104-109 | the union holds each element of either side once |
| Sequences.Except | src/MassTransit/Configuration/Registration/BusRegistrationContext.cs:110 | the difference holds each element of the first side that is not in the second, once |
| Sequences.FilterConcat | src/MassTransit/Configuration/Registration/BusRegistrationContext.cs:53 | `Where` keeps order: filtering a concatenation gives the filtered parts concatenated |
| Sequences.DistinctConcat | src/MassTransit/Configuration/Registration/BusRegistrationContext.cs:104-110 | `Distinct` keeps first-occurrence order: the distinct elements of `a + b` are those of `a`, then the elements of `b` not in `a`, each once |
| Sequences.UnionOrder | src/MassTransit/Configuration/Registration/BusRegistrationContext.cs:104-109 | `a.Union(b)` lists the distinct elements of `a`, then those of `b` that are not in `a` |
| Sequences.FlatMap | src/MassTransit/Configuration/Registration/BusRegistrationContext.cs:143-203 | an element is in the concatenation exactly when some part contains it |
| BusRegistration.Contributing | src/MassTransit/Configuration/Registration/BusRegistrationContext.cs:53-55 | a registration contributes exactly when it matches the filter and its type was not configured before |
| BusRegistration.Contribute | src/MassTransit/Configuration/Registration/BusRegistrationContext.cs:53-91 | the same for each kind; explicit endpoint definitions are not filtered |
| BusRegistration.Keys | src/MassTransit/Configuration/Registration/BusRegistrationContext.cs:56 | the group keys are distinct and are exactly the names some element maps to |
| BusRegistration.Members | src/MassTransit/Configuration/Registration/BusRegistrationContext.cs:112-124 | a name's group holds exactly the elements grouped under that name |
| BusRegistration.EndpointNames | src/MassTransit/Configuration/Registration/BusRegistrationContext.cs:104-110 | the main names are distinct, and a name is one exactly when some registration is grouped under it and no activity compensates there |
| BusRegistration.ExplicitDefinition | src/MassTransit/Configuration/Registration/BusRegistrationContext.cs:90-101 | an explicit definition is found under a name exactly when some explicit endpoint is named so; it carries that name, and its parts are exactly the explicit endpoints named so |
| BusRegistration.DelegateGroup | src/MassTransit/Configuration/Registration/BusRegistrationContext.cs:126-130 | a group yields a definition named after the endpoint exactly when it is non-empty; its parts are, in order, one delegating definition per registration wrapping that registration's own endpoint definition |
| BusRegistration.ExecuteDelegateGroup | src/MassTransit/Configuration/Registration/BusRegistrationContext.cs:128-129 | the same for activities, wrapping each activity's execute endpoint definition |
| BusRegistration.EndpointFor | src/MassTransit/Configuration/Registration/BusRegistrationContext.cs:112-141 | the endpoint for a name gathers exactly the consumers, sagas, activities, execute activities and futures grouped under it |
| BusRegistration.Coalesce | src/MassTransit/Configuration/Registration/BusRegistrationContext.cs:125-131 | a chain of `??` yields the first present value, the fallback when none is present, and never anything else |
| BusRegistration.Candidates | src/MassTransit/Configuration/Registration/BusRegistrationContext.cs:124-131 | there are six candidate definitions in priority order: first the explicit definition, then the group candidates (consumers, sagas, activities by execute name, execute activities, futures) of the members joined under the name; each one present carries the endpoint's name |
| BusRegistration.DefinitionPriority | src/MassTransit/Configuration/Registration/BusRegistrationContext.cs:125-131 | the definition is the first candidate present in the order explicit, consumer, saga, activity, execute activity, future; a bare named definition when none is |
| BusRegistration.DefinitionNamed | src/MassTransit/Configuration/Registration/BusRegistrationContext.cs:145-147 | the definition chosen for a main endpoint carries that endpoint's name |
| BusRegistration.Plan | src/MassTransit/Configuration/Registration/BusRegistrationContext.cs:112-141 | one endpoint per main name, in name order, each gathering exactly what is grouped under its name |
| BusRegistration.OneEndpointPerName | src/MassTransit/Configuration/Registration/BusRegistrationContext.cs:112-145 | exactly one endpoint is created per distinct main name |
| BusRegistration.Configure | src/MassTransit/Configuration/Registration/BusRegistrationContext.cs:242-246 | the composite hook invokes each configurator in array order, with the same name and configurator |
| BusRegistration.ConfigureCounts | src/MassTransit/Configuration/Registration/BusRegistrationContext.cs:244-245 | each configurator is invoked as often as it occurs in the array |
| BusRegistration.ConfigureAll | src/MassTransit/Configuration/Registration/BusRegistrationContext.cs:149-159 | the i-th call configures the i-th registration of the group on the endpoint, and nothing else is configured |
| BusRegistration.KindCalls | src/MassTransit/Configuration/Registration/BusRegistrationContext.cs:149-159 | every registration of one kind gathered by the endpoint is configured with the endpoint's configurator, and each such call stands for one of them |
| BusRegistration.CompensateCalls | src/MassTransit/Configuration/Registration/BusRegistrationContext.cs:163-187 | the compensate endpoint uses the activity's own definition, else the explicit one under the compensate name, else the bare name; each hook runs in order with that definition's name and the execute endpoint's configurator; the activity is configured on both endpoints |
| BusRegistration.ActivityCalls | src/MassTransit/Configuration/Registration/BusRegistrationContext.cs:161-189 | every activity of the endpoint gets all of its compensate calls, and none of them configures a handler |
| BusRegistration.SharedCompensateNameOpenedTwice | src/MassTransit/Configuration/Registration/BusRegistrationContext.cs:161-187 | compensate endpoints are opened once per activity: two activities with the same compensate name and no own definition make the same opening call twice |
| BusRegistration.HandlerCalls | src/MassTransit/Configuration/Registration/BusRegistrationContext.cs:149-201 | every gathered registration is configured on the endpoint, and every handler configured there was gathered by it |
| BusRegistration.EndpointCalls | src/MassTransit/Configuration/Registration/BusRegistrationContext.cs:143-203 | the endpoint is created first, then every hook runs with the definition's name, then the handlers and compensate endpoints follow |
| BusRegistration.GetConfigureReceiveEndpoints | src/MassTransit/Configuration/Registration/BusRegistrationContext.cs:206-225 | a cached composite is returned untouched and without queries; otherwise the hook list, else the single hook, else none, is cached |
| BusRegistration.SelectFormatter | src/MassTransit/Configuration/Registration/BusRegistrationContext.cs:44 | the formatter passed in is used, else the registered one, else the default |
| BusRegistration.CacheIdempotent | src/MassTransit/Configuration/Registration/BusRegistrationContext.cs:206-209 | a second call returns the same hooks and state without querying services |
| BusRegistration.ConfigureEndpoints | src/MassTransit/Configuration/Registration/BusRegistrationContext.cs:40-204 | afterwards the hook cache is filled and services unchanged, and no two main endpoints share a name |
| BusRegistration.EndpointOf | src/MassTransit/Configuration/Registration/BusRegistrationContext.cs:143-147 | for a main endpoint name, every call of its callback appears in the whole configuration |
| BusRegistration.HandlerConfigured | src/MassTransit/Configuration/Registration/BusRegistrationContext.cs:149-201 | a contributing consumer, saga, execute activity or future is configured on the endpoint it is grouped under, unless that name is a compensate name |
| BusRegistration.ActivityCompensated | src/MassTransit/Configuration/Registration/BusRegistrationContext.cs:161-187 | a contributing activity on a main execute endpoint gets every call of its compensate endpoint |
| BusRegistration.OnlyContributingConfigured | src/MassTransit/Configuration/Registration/BusRegistrationContext.cs:53-88 | every handler configured anywhere matched the filter and was not configured before |
| BusRegistration.HooksSeeEndpointName | src/MassTransit/Configuration/Registration/BusRegistrationContext.cs:145-147 | on every main endpoint the hooks run right after its creation, with its own name and configurator |
| BusRegistration.ShadowedExecuteEndpoint | src/MassTransit/Configuration/Registration/BusRegistrationContext.cs:104-110 | an activity whose execute name is some activity's compensate name is gathered by no endpoint |

## Left out

- Request and response I/O of OWIN, headers, the receive-context objects, serialization and logging are not modelled. The delivery tag (NewId) is an input.
- Real thread interleaving is not modelled. `Begin`, `Finish` and `Stop` are each one atomic step of `System`, although the code runs each as several separate operations. The compare-exchange race inside the maximum update is shown separately under Findings.
- The check-then-act race between Handle and Stop is not modelled. Handle reads `_shuttingDown` at HttpConsumerAction.cs:77. Stop can then set the flag (:147) and read a pending count of 0 (:149), so it does not wait. Handle then increments the count (:86) and dispatches without a 503, after Stop has returned. Because `Begin` is one atomic step, no run of `System` reaches this.
- HttpConsumerAction.Track, ArriveValid, StepValid, RunValid: the counters are C# `int` fields (HttpConsumerAction.cs:26-27, 31) and `Interlocked.Increment` wraps around, so the model's unbounded "never decreases" holds only below 2^31 increments. `_deliveryCount` is incremented but never read. The `DeliveryCount` property (:63) is a separate get-only property that is never assigned.
- HttpConsumerAction.Begin: an exception from the constructors at HttpConsumerAction.cs:90-93 is not modelled. Those constructors run after the increments and outside the try block, so such an exception leaves the pending count raised and never signals the drain, and a later Stop times out.
- The 60-second timer of Stop is a nondeterministic `timedOut` flag. The awaited `ParticipantCompleted` of the task supervisor is not part of this model, nor are `CreateParticipant` and `SetReady`.
- HttpConsumerAction.AwaitDrain: assumes that the wait helper `WithCancellation` (HttpConsumerAction.cs:155, not part of this model) signals the timeout with a `TaskCanceledException`. The catch at :158 catches only that type. If the helper threw a plain `OperationCanceledException` or anything else, Stop would rethrow it instead of logging a timeout, and the outcome would be an exception.
- HttpConsumerAction.Handle: states the bookkeeping for an uninterrupted call only. The response and `next()` counts are stated by HandleResponse and NextCalls for the case where the shutdown branch's `next()` does not throw. Begin covers the case where it throws.
- The Kafka client, the receiver's internals, `Task.Run` scheduling and `Task.Yield` are not modelled, except that `StartLoop` covers a token cancelled before the body starts. The race between `Subscribe` and the loop start is taken as not happening. The loop's task status is an input to Subscribe and Unsubscribe.
- Cancellation requests are monotone, so the loop takes them as the number of head tests that find none. A cancellation of the loop's token during Consume shows up as Consume throwing on that token. Handle receives only the outer token (KafkaConsumer.cs:50). If the loop's token is cancelled while Handle runs, Handle completes, the record is committed, and the loop exits at the next head test. A cancellation of the outer token inside Handle shows up as Handle throwing on the outer token. The loop lemmas hold for every script. Only scripts that satisfy `Feasible` are runs of the source: after Consume throws on the loop's token, no further pass runs, and Handle and Commit never throw on that token.
- KafkaConsumer.Unsubscribe: "never throws" holds by construction, because the function has no error result. It is not stated as a separate clause.
- `UseHealthCheck` and the `ConfigureEndpoints` overload that passes `NoFilter` are wiring only.
- `ConfigureConsumer`, `ConfigureSaga`, `ConfigureActivity`, `ConfigureExecuteActivity` and `ConfigureFuture` are recorded as calls. Their bodies are not part of this model.
- `Combine()`, `DelegateEndpointDefinition`, `NamedEndpointDefinition` and `GetEndpointName` are not part of this model. `Combine` of one definition is taken to be that definition. `Combine` of several is a `Combined` value named after its group.
- BusRegistration.ConfigureEndpoints: the distinct-name promise covers the main endpoints only. Compensate endpoints are opened once per activity (BusRegistrationContext.cs:161-187), so a compensate name shared by several activities is opened more than once; SharedCompensateNameOpenedTwice exhibits this.
- A receive-endpoint callback is taken to run once, at its `ReceiveEndpoint` call, before the next call.
- The formatter is resolved by `SelectFormatter`, which applies the argument, then the service, then the default. Names are abstract functions of the formatter.

## Findings

| source | as written | input that shows it | evidently intended | confidence | as-written member | corrected member |
|---|---|---|---|---|---|---|
| src/MassTransit.HttpTransport/HttpConsumerAction.cs:87-88 | the compare-exchange reads the field again for its comparand, so it succeeds even after another delivery raised the field | maximum 2, this delivery's count 3, and another delivery stores 5 between the loop test and the comparand read: the field goes 2, 5, 3 | the maximum pending count never decreases | not executed | HttpConsumerAction.AsWrittenLosesRaise | HttpConsumerAction.RaiseMaxCorrected |

=== FILE: bus_registration_context.dfy ===
/**
 Endpoint configuration of MassTransit's BusRegistrationContext: which
 registrations contribute, how they are grouped by endpoint name, which
 receive endpoints are created with which definition, which configure calls
 each endpoint callback makes, the cached receive-endpoint hooks, and the
 composite hook that runs each of them.

 Endpoint names, the registration filter and WasConfigured are abstract
 functions collected in an `Env`. A receive-endpoint callback is taken to run
 once, at the point of its `ReceiveEndpoint` call, so the configure calls it
 makes follow that call in the trace.
 */
module BusRegistration {
  import opened Wrappers
  import opened Sequences

  type Name = string

  /** The type a consumer, saga, activity or future registration stands for. */
  type TypeId = string

  /** One registered IConfigureReceiveEndpoint. */
  type HookId = nat

  /** An endpoint name formatter; names depend on the formatter in use. */
  datatype Formatter = Formatter(id: nat)

  /** DefaultEndpointNameFormatter.Instance. */
  const DefaultFormatter: Formatter := Formatter(0)

  /** An endpoint definition object. */
  datatype EndpointDef =
    | Defined(id: nat)                                                   // supplied by a registration
    | Combined(name: Name, parts: seq<EndpointDef>)                      // several definitions combined
    | Delegating(name: Name, typeId: TypeId, inner: Option<EndpointDef>) // DelegateEndpointDefinition
    | Named(name: Name)                                                  // NamedEndpointDefinition

  /** The collaborators the computation consults, as functions. */
  datatype Env = Env(
    matches: TypeId -> bool,                  // the registration filter built by configureFilter
    configured: TypeId -> bool,               // WasConfigured
    endpointName: (Formatter, TypeId) -> Name,
    executeName: (Formatter, TypeId) -> Name,
    compensateName: (Formatter, TypeId) -> Name,
    definedName: (Formatter, nat) -> Name)    // GetEndpointName of a Defined definition

  /** A consumer, saga, execute-activity or future registration and its definition's endpoint definition. */
  datatype Registration = Registration(typeId: TypeId, endpoint: Option<EndpointDef>)

  datatype ActivityRegistration = ActivityRegistration(typeId: TypeId, execute: Option<EndpointDef>, compensate: Option<EndpointDef>)

  /** The registration caches; `endpoints` holds the ids of explicitly registered endpoint definitions. */
  datatype Registrations = Registrations(
    consumers: seq<Registration>,
    sagas: seq<Registration>,
    activities: seq<ActivityRegistration>,
    executeActivities: seq<Registration>,
    futures: seq<Registration>,
    endpoints: seq<nat>)

  /** The name formatter: the one passed in, else the registered service, else the default formatter. */
  function SelectFormatter(given: Option<Formatter>, registered: Option<Formatter>): (f: Formatter)
    ensures given.Some? ==> f == given.value
    ensures given.None? && registered.Some? ==> f == registered.value
    ensures given.None? && registered.None? ==> f == DefaultFormatter
  {
    given.GetOr(registered.GetOr(DefaultFormatter))
  }

  function DefName(env: Env, f: Formatter, d: EndpointDef): Name {
    match d
    case Defined(id) => env.definedName(f, id)
    case Combined(name, _) => name
    case Delegating(name, _, _) => name
    case Named(name) => name
  }

  // ---------------------------------------------------------------------------
  // Filtering and grouping
  // ---------------------------------------------------------------------------

  predicate Contributes(env: Env, t: TypeId) {
    env.matches(t) && !env.configured(t)
  }

  /** The registrations of one kind that match the filter and were not configured before. */
  function Contributing(env: Env, regs: seq<Registration>): (r: seq<Registration>)
    ensures forall x :: x in r <==> x in regs && Contributes(env, x.typeId)
  {
    Filter(regs, (x: Registration) => Contributes(env, x.typeId))
  }

  function ContributingActivities(env: Env, regs: seq<ActivityRegistration>): (r: seq<ActivityRegistration>)
    ensures forall a :: a in r <==> a in regs && Contributes(env, a.typeId)
  {
    Filter(regs, (a: ActivityRegistration) => Contributes(env, a.typeId))
  }

  /** The filtered registrations; explicit endpoint definitions are not filtered. */
  function Contribute(env: Env, regs: Registrations): (g: Registrations)
    ensures forall x :: x in g.consumers <==> x in regs.consumers && Contributes(env, x.typeId)
    ensures forall x :: x in g.sagas <==> x in regs.sagas && Contributes(env, x.typeId)
    ensures forall a :: a in g.activities <==> a in regs.activities && Contributes(env, a.typeId)
    ensures forall x :: x in g.executeActivities <==> x in regs.executeActivities && Contributes(env, x.typeId)
    ensures forall x :: x in g.futures <==> x in regs.futures && Contributes(env, x.typeId)
    ensures g.endpoints == regs.endpoints
  {
    Registrations(
      Contributing(env, regs.consumers),
      Contributing(env, regs.sagas),
      ContributingActivities(env, regs.activities),
      Contributing(env, regs.executeActivities),
      Contributing(env, regs.futures),
      regs.endpoints)
  }

  /** The keys of `GroupBy(key)`, in order of first occurrence. */
  function Keys<T(==,!new)>(s: seq<T>, key: T -> Name): (r: seq<Name>)
    ensures NoDuplicates(r)
    ensures forall e :: e in r <==> exists x :: x in s && key(x) == e
  {
    var ks := Map(s, key);
    assert forall e :: e in ks <==> exists x :: x in s && key(x) == e by {
      forall e | e in ks ensures exists x :: x in s && key(x) == e {
        var i :| 0 <= i < |ks| && ks[i] == e;
        assert s[i] in s;
      }
      forall x | x in s ensures key(x) in ks {
        var i :| 0 <= i < |s| && s[i] == x;
        assert ks[i] == key(x);
      }
    }
    Distinct(ks)
  }

  /** The group under key `e`; empty when `GroupBy` made no such group. */
  function Members<T(==,!new)>(s: seq<T>, key: T -> Name, e: Name): (r: seq<T>)
    ensures forall x :: x in r <==> x in s && key(x) == e
  {
    Filter(s, x => key(x) == e)
  }

  function EndpointKey(env: Env, f: Formatter): Registration -> Name {
    (x: Registration) => env.endpointName(f, x.typeId)
  }

  function ExecuteKey(env: Env, f: Formatter): Registration -> Name {
    (x: Registration) => env.executeName(f, x.typeId)
  }

  function ActivityExecuteKey(env: Env, f: Formatter): ActivityRegistration -> Name {
    (a: ActivityRegistration) => env.executeName(f, a.typeId)
  }

  function ActivityCompensateKey(env: Env, f: Formatter): ActivityRegistration -> Name {
    (a: ActivityRegistration) => env.compensateName(f, a.typeId)
  }

  function DefinedKey(env: Env, f: Formatter): nat -> Name {
    (id: nat) => env.definedName(f, id)
  }

  /** A name some registration of the endpoint-creating kinds is grouped under. */
  predicate Grouped(env: Env, f: Formatter, g: Registrations, e: Name) {
    || e in Keys(g.consumers, EndpointKey(env, f))
    || e in Keys(g.sagas, EndpointKey(env, f))
    || e in Keys(g.activities, ActivityExecuteKey(env, f))
    || e in Keys(g.executeActivities, ExecuteKey(env, f))
    || e in Keys(g.futures, EndpointKey(env, f))
    || e in Keys(g.endpoints, DefinedKey(env, f))
  }

  /** The compensate endpoint name of some contributing activity. */
  predicate CompensateName(env: Env, f: Formatter, g: Registrations, e: Name) {
    exists a :: a in g.activities && env.compensateName(f, a.typeId) == e
  }

  /** The main endpoint names: the union of all group keys, minus every compensate name. */
  function EndpointNames(env: Env, f: Formatter, g: Registrations): (r: seq<Name>)
    ensures NoDuplicates(r)
    ensures forall e :: e in r <==> Grouped(env, f, g, e) && !CompensateName(env, f, g, e)
  {
    var u := Union(Union(Union(Union(Union(
      Keys(g.consumers, EndpointKey(env, f)),
      Keys(g.sagas, EndpointKey(env, f))),
      Keys(g.activities, ActivityExecuteKey(env, f))),
      Keys(g.executeActivities, ExecuteKey(env, f))),
      Keys(g.futures, EndpointKey(env, f))),
      Keys(g.endpoints, DefinedKey(env, f)));
    var c := Keys(g.activities, ActivityCompensateKey(env, f));
    assert forall e :: e in c <==> CompensateName(env, f, g, e);
    Except(u, c)
  }

  // ---------------------------------------------------------------------------
  // One endpoint per name
  // ---------------------------------------------------------------------------

  /** The definitions a definition stands for: the parts of a combined one, else itself. */
  function Parts(d: EndpointDef): seq<EndpointDef> {
    if d.Combined? then d.parts else [d]
  }

  /** `Combine()` of a non-empty group: a single definition stands for itself. */
  function Combine(name: Name, defs: seq<EndpointDef>): (d: EndpointDef)
    requires |defs| > 0
    ensures d in defs || d == Combined(name, defs)
    ensures (forall x :: x in defs ==> !x.Combined?) ==> Parts(d) == defs
  {
    if |defs| == 1 then
      assert defs == [defs[0]];
      defs[0]
    else Combined(name, defs)
  }

  /** The combined definitions of a group; none for a missing group. */
  function GroupDefinition(name: Name, defs: seq<EndpointDef>): (d: Option<EndpointDef>)
    ensures d.Some? <==> |defs| > 0
    ensures d.Some? ==> d.value in defs || d.value == Combined(name, defs)
    ensures d.Some? && (forall x :: x in defs ==> !x.Combined?) ==> Parts(d.value) == defs
  {
    if |defs| == 0 then None else Some(Combine(name, defs))
  }

  function AsDefined(ids: seq<nat>): (r: seq<EndpointDef>)
    ensures |r| == |ids|
    ensures forall d :: d in r <==> d.Defined? && d.id in ids
  {
    var r := Map(ids, (id: nat) => Defined(id));
    assert forall id :: id in ids ==> Defined(id) in r by {
      forall id | id in ids ensures Defined(id) in r {
        var i :| 0 <= i < |ids| && ids[i] == id;
        assert r[i] == Defined(id);
      }
    }
    r
  }

  /**
   The definition a group of registrations offers for endpoint `e`: one
   delegating definition per registration, wrapping that registration's own
   definition, combined; none for a missing group.
   */
  function DelegateGroup(e: Name, regs: seq<Registration>): (d: Option<EndpointDef>)
    ensures d.Some? <==> |regs| > 0
    ensures d.Some? ==> (d.value.Delegating? || d.value.Combined?) && d.value.name == e
    ensures d.Some? ==> |Parts(d.value)| == |regs|
    ensures d.Some? ==> forall i :: 0 <= i < |regs| ==> Parts(d.value)[i] == Delegating(e, regs[i].typeId, regs[i].endpoint)
  {
    var defs := Map(regs, (x: Registration) => Delegating(e, x.typeId, x.endpoint));
    assert forall x :: x in defs ==> !x.Combined?;
    GroupDefinition(e, defs)
  }

  /** The same over activities, wrapping each activity's execute endpoint definition. */
  function ExecuteDelegateGroup(e: Name, acts: seq<ActivityRegistration>): (d: Option<EndpointDef>)
    ensures d.Some? <==> |acts| > 0
    ensures d.Some? ==> (d.value.Delegating? || d.value.Combined?) && d.value.name == e
    ensures d.Some? ==> |Parts(d.value)| == |acts|
    ensures d.Some? ==> forall i :: 0 <= i < |acts| ==> Parts(d.value)[i] == Delegating(e, acts[i].typeId, acts[i].execute)
  {
    var defs := Map(acts, (a: ActivityRegistration) => Delegating(e, a.typeId, a.execute));
    assert forall x :: x in defs ==> !x.Combined?;
    GroupDefinition(e, defs)
  }

  /**
   The explicit endpoint definitions registered under `e`, combined
   (`endpointsWithName`): present exactly when some explicit definition is
   named `e`, and standing for exactly those definitions.
   */
  function ExplicitDefinition(env: Env, f: Formatter, g: Registrations, e: Name): (d: Option<EndpointDef>)
    ensures d.Some? <==> exists id :: id in g.endpoints && env.definedName(f, id) == e
    ensures d.Some? ==> DefName(env, f, d.value) == e
    ensures d.Some? ==> forall x :: x in Parts(d.value) <==> x.Defined? && x.id in g.endpoints && env.definedName(f, x.id) == e
  {
    var ids := Members(g.endpoints, DefinedKey(env, f), e);
    var defs := AsDefined(ids);
    var d := GroupDefinition(e, defs);
    assert forall x :: x in defs ==> !x.Combined?;
    assert (exists id :: id in g.endpoints && env.definedName(f, id) == e) ==> |ids| > 0 by {
      if exists id :: id in g.endpoints && env.definedName(f, id) == e {
        var id :| id in g.endpoints && env.definedName(f, id) == e;
        assert DefinedKey(env, f)(id) == e;
        assert id in ids;
      }
    }
    assert |ids| > 0 ==> ids[0] in g.endpoints && env.definedName(f, ids[0]) == e by {
      if |ids| > 0 {
        assert ids[0] in ids;
      }
    }
    assert d.Some? && |ids| == 1 ==> ids[0] in ids;
    d
  }

  /** What the endpoint named `e` gathers, and its chosen definition. */
  datatype Endpoint = Endpoint(
    name: Name,
    definition: EndpointDef,
    consumers: seq<Registration>,
    sagas: seq<Registration>,
    activities: seq<ActivityRegistration>,
    executeActivities: seq<Registration>,
    futures: seq<Registration>)

  /**
   The candidate definitions for `e`, in the priority order of the lookup: the
   explicit definition, then the delegating definitions of the groups joined
   under `e`.
   */
  function Candidates(env: Env, f: Formatter, g: Registrations, e: Name): (c: seq<Option<EndpointDef>>)
    ensures |c| == 6
    ensures forall k :: 0 <= k < |c| && c[k].Some? ==> DefName(env, f, c[k].value) == e
    ensures c[0] == ExplicitDefinition(env, f, g, e)
    ensures c[1..] == GroupCandidates(e,
      Members(g.consumers, EndpointKey(env, f), e),
      Members(g.sagas, EndpointKey(env, f), e),
      Members(g.activities, ActivityExecuteKey(env, f), e),
      Members(g.executeActivities, ExecuteKey(env, f), e),
      Members(g.futures, EndpointKey(env, f), e))
  {
    var groups := GroupCandidates(e,
      Members(g.consumers, EndpointKey(env, f), e),
      Members(g.sagas, EndpointKey(env, f), e),
      Members(g.activities, ActivityExecuteKey(env, f), e),
      Members(g.executeActivities, ExecuteKey(env, f), e),
      Members(g.futures, EndpointKey(env, f), e));
    assert ([ExplicitDefinition(env, f, g, e)] + groups)[1..] == groups;
    [ExplicitDefinition(env, f, g, e)] + groups
  }

  /**
   The delegating definitions of the groups joined under `e`, in priority
   order: consumers, sagas, activities by execute name, execute activities,
   futures.
   */
  function GroupCandidates(e: Name, consumers: seq<Registration>, sagas: seq<Registration>,
                           activities: seq<ActivityRegistration>, executeActivities: seq<Registration>,
                           futures: seq<Registration>): (c: seq<Option<EndpointDef>>)
    ensures |c| == 5
    ensures forall k :: 0 <= k < |c| && c[k].Some? ==> (c[k].value.Delegating? || c[k].value.Combined?) && c[k].value.name == e
  {
    [ DelegateGroup(e, consumers),
      DelegateGroup(e, sagas),
      ExecuteDelegateGroup(e, activities),
      DelegateGroup(e, executeActivities),
      DelegateGroup(e, futures) ]
  }

  /**
   The joins for one name. The definition is the explicit one, else the first
   present delegating definition of the consumer, saga, activity, execute
   activity and future groups, in that order, else a bare named definition.
   */
  function EndpointFor(env: Env, f: Formatter, g: Registrations, e: Name): (ep: Endpoint)
    ensures ep.name == e
    ensures forall x :: x in ep.consumers <==> x in g.consumers && env.endpointName(f, x.typeId) == e
    ensures forall x :: x in ep.sagas <==> x in g.sagas && env.endpointName(f, x.typeId) == e
    ensures forall a :: a in ep.activities <==> a in g.activities && env.executeName(f, a.typeId) == e
    ensures forall x :: x in ep.executeActivities <==> x in g.executeActivities && env.executeName(f, x.typeId) == e
    ensures forall x :: x in ep.futures <==> x in g.futures && env.endpointName(f, x.typeId) == e
  {
    var c := Candidates(env, f, g, e);
    var definition := Coalesce(c, Named(e));
    Endpoint(e, definition,
      Members(g.consumers, EndpointKey(env, f), e),
      Members(g.sagas, EndpointKey(env, f), e),
      Members(g.activities, ActivityExecuteKey(env, f), e),
      Members(g.executeActivities, ExecuteKey(env, f), e),
      Members(g.futures, EndpointKey(env, f), e))
  }

  /** A chain of null-coalescing operators: the first present candidate, else the fallback. */
  function Coalesce<T>(c: seq<Option<T>>, fallback: T): (d: T)
    ensures forall k :: 0 <= k < |c| && c[k].Some? && (forall j :: 0 <= j < k ==> c[j].None?) ==> d == c[k].value
    ensures (forall k :: 0 <= k < |c| ==> c[k].None?) ==> d == fallback
    ensures d == fallback || exists k :: 0 <= k < |c| && c[k] == Some(d)
    decreases |c|
  {
    if |c| == 0 then fallback
    else
      var rest := Coalesce(c[1..], fallback);
      assert forall k :: 1 <= k < |c| ==> c[k] == c[1..][k - 1];
      c[0].GetOr(rest)
  }

  /**
   The definition of an endpoint is the first candidate present in priority
   order — explicit endpoints, consumers, sagas, activities, execute
   activities, futures — or a bare named definition when there is none.
   */
  lemma DefinitionPriority(env: Env, f: Formatter, g: Registrations, e: Name)
    ensures var c := Candidates(env, f, g, e);
      var d := EndpointFor(env, f, g, e).definition;
      && |c| == 6
      && (forall k :: 0 <= k < |c| && c[k].Some? && (forall j :: 0 <= j < k ==> c[j].None?) ==> d == c[k].value)
      && ((forall k :: 0 <= k < |c| ==> c[k].None?) ==> d == Named(e))
  {
  }

  /** The definition chosen for a main endpoint carries that endpoint's name. */
  lemma DefinitionNamed(env: Env, f: Formatter, g: Registrations, e: Name)
    ensures DefName(env, f, EndpointFor(env, f, g, e).definition) == e
  {
    var c := Candidates(env, f, g, e);
    var d := EndpointFor(env, f, g, e).definition;
    if d != Named(e) {
      var k :| 0 <= k < |c| && c[k] == Some(d);
    }
  }

  /** One endpoint per main name, in the order of the names. */
  function Plan(env: Env, f: Formatter, g: Registrations): (r: seq<Endpoint>)
    ensures |r| == |EndpointNames(env, f, g)|
    ensures forall i :: 0 <= i < |r| ==> r[i] == EndpointFor(env, f, g, EndpointNames(env, f, g)[i])
    ensures forall ep :: ep in r ==> ep == EndpointFor(env, f, g, ep.name)
  {
    Map(EndpointNames(env, f, g), e => EndpointFor(env, f, g, e))
  }

  /** Exactly one endpoint per distinct main name. */
  lemma OneEndpointPerName(env: Env, f: Formatter, g: Registrations)
    ensures var p := Plan(env, f, g);
      && (forall i, j :: 0 <= i < j < |p| ==> p[i].name != p[j].name)
      && (forall e :: (exists i :: 0 <= i < |p| && p[i].name == e) <==> Grouped(env, f, g, e) && !CompensateName(env, f, g, e))
  {
    var p := Plan(env, f, g);
    var names := EndpointNames(env, f, g);
    assert forall i :: 0 <= i < |p| ==> p[i].name == names[i];
    forall e ensures (exists i :: 0 <= i < |p| && p[i].name == e) <==> e in names {
      if e in names {
        var i :| 0 <= i < |names| && names[i] == e;
        assert p[i].name == e;
      }
    }
  }

  // ---------------------------------------------------------------------------
  // The calls each endpoint makes
  // ---------------------------------------------------------------------------

  /** The configurator handed to a receive-endpoint callback, by the endpoint it belongs to. */
  datatype Configurator = EndpointCfg(name: Name) | CompensateCfg(name: Name)

  datatype Kind = ConsumerKind | SagaKind | ExecuteActivityKind | FutureKind

  datatype Call =
    | ReceiveEndpoint(definition: EndpointDef)                                  // ReceiveEndpoint(definition, formatter, callback)
    | ReceiveEndpointNamed(name: Name)                                          // ReceiveEndpoint(name, callback)
    | Hook(hook: HookId, name: Name, cfg: Configurator)                         // one hook's Configure(name, cfg)
    | ConfigureHandler(kind: Kind, typeId: TypeId, cfg: Configurator)           // ConfigureConsumer, ConfigureSaga, ...
    | ConfigureActivity(typeId: TypeId, execute: Configurator, compensate: Configurator)

  /** ConfigureReceiveEndpoint.Configure: each hook in array order, once. */
  function Configure(hooks: seq<HookId>, name: Name, cfg: Configurator): (r: seq<Call>)
    ensures |r| == |hooks|
    ensures forall i :: 0 <= i < |hooks| ==> r[i] == Hook(hooks[i], name, cfg)
    ensures forall c :: c in r ==> c.Hook? && c.name == name && c.cfg == cfg
    decreases |hooks|
  {
    if |hooks| == 0 then []
    else [Hook(hooks[0], name, cfg)] + Configure(hooks[1..], name, cfg)
  }

  /** Each hook is invoked exactly as many times as it occurs in the array. */
  lemma {:induction false} ConfigureCounts(hooks: seq<HookId>, name: Name, cfg: Configurator, h: HookId)
    ensures multiset(Configure(hooks, name, cfg))[Hook(h, name, cfg)] == multiset(hooks)[h]
    decreases |hooks|
  {
    if |hooks| > 0 {
      ConfigureCounts(hooks[1..], name, cfg, h);
      ConfigureCountsStep(hooks, name, cfg, h);
    }
  }

  /** The step of ConfigureCounts: the first hook adds one call exactly when it is `h`. */
  lemma ConfigureCountsStep(hooks: seq<HookId>, name: Name, cfg: Configurator, h: HookId)
    requires |hooks| > 0
    ensures multiset(Configure(hooks, name, cfg))[Hook(h, name, cfg)] ==
      (if hooks[0] == h then 1 else 0) + multiset(Configure(hooks[1..], name, cfg))[Hook(h, name, cfg)]
    ensures multiset(hooks)[h] == (if hooks[0] == h then 1 else 0) + multiset(hooks[1..])[h]
  {
    var head, rest := Hook(hooks[0], name, cfg), Configure(hooks[1..], name, cfg);
    assert Configure(hooks, name, cfg) == [head] + rest;
    CountCons(head, rest, Hook(h, name, cfg));
    CountFirst(hooks, h);
  }

  /** Configures every registration of a group, in order, on the endpoint's configurator. */
  function ConfigureAll(kind: Kind, regs: seq<Registration>, cfg: Configurator): (r: seq<Call>)
    ensures |r| == |regs|
    ensures forall i :: 0 <= i < |regs| ==> r[i] == ConfigureHandler(kind, regs[i].typeId, cfg)
    ensures forall x :: x in regs ==> ConfigureHandler(kind, x.typeId, cfg) in r
    ensures forall c :: c in r ==>
      && c.ConfigureHandler? && c.kind == kind && c.cfg == cfg
      && exists x :: x in regs && x.typeId == c.typeId
  {
    var r := seq(|regs|, i requires 0 <= i < |regs| => ConfigureHandler(kind, regs[i].typeId, cfg));
    assert forall c :: c in r ==> exists i :: 0 <= i < |regs| && c == r[i];
    assert forall c :: c in r ==> exists x :: x in regs && x.typeId == c.typeId by {
      forall c | c in r ensures exists x :: x in regs && x.typeId == c.typeId {
        var i :| 0 <= i < |regs| && c == r[i];
        assert regs[i] in regs;
      }
    }
    r
  }

  /**
   The compensate endpoint of one activity on the execute endpoint `e`: the
   activity's own compensate definition, else the explicit endpoint
   definition under the compensate name, else a receive endpoint by bare
   name. The hooks are handed the execute endpoint's configurator.
   */
  function CompensateCalls(env: Env, f: Formatter, hooks: seq<HookId>, g: Registrations, e: Name, a: ActivityRegistration): (r: seq<Call>)
    ensures |r| == |hooks| + 2
    ensures var n := env.compensateName(f, a.typeId);
      var d := if a.compensate.Some? then a.compensate else ExplicitDefinition(env, f, g, n);
      && r[0] == (if d.Some? then ReceiveEndpoint(d.value) else ReceiveEndpointNamed(n))
      && r[|r| - 1] == ConfigureActivity(a.typeId, EndpointCfg(e), CompensateCfg(if d.Some? then DefName(env, f, d.value) else n))
    ensures var n := env.compensateName(f, a.typeId);
      var d := if a.compensate.Some? then a.compensate else ExplicitDefinition(env, f, g, n);
      forall i :: 0 <= i < |hooks| ==> r[1 + i] == Hook(hooks[i], if d.Some? then DefName(env, f, d.value) else n, EndpointCfg(e))
    ensures forall c :: c in r[1..|r| - 1] ==> c.Hook? && c.cfg == EndpointCfg(e)
    ensures forall h :: h in hooks ==> exists c :: c in r && c.Hook? && c.hook == h && c.cfg == EndpointCfg(e)
    ensures forall c :: c in r ==> !c.ConfigureHandler?
  {
    var n := env.compensateName(f, a.typeId);
    var d := if a.compensate.Some? then a.compensate else ExplicitDefinition(env, f, g, n);
    var (open, name) := if d.Some? then (ReceiveEndpoint(d.value), DefName(env, f, d.value)) else (ReceiveEndpointNamed(n), n);
    CompensateEndpoint(open, name, hooks, e, a.typeId)
  }

  /** A compensate endpoint opened by `open` under `name`: its hooks, then the activity on both configurators. */
  function CompensateEndpoint(open: Call, name: Name, hooks: seq<HookId>, e: Name, typeId: TypeId): (r: seq<Call>)
    requires !open.ConfigureHandler?
    ensures |r| == |hooks| + 2
    ensures r[0] == open && r[|r| - 1] == ConfigureActivity(typeId, EndpointCfg(e), CompensateCfg(name))
    ensures forall i :: 0 <= i < |hooks| ==> r[1 + i] == Hook(hooks[i], name, EndpointCfg(e))
    ensures forall c :: c in r[1..|r| - 1] ==> c.Hook? && c.cfg == EndpointCfg(e)
    ensures forall h :: h in hooks ==> exists c :: c in r && c.Hook? && c.hook == h && c.cfg == EndpointCfg(e)
    ensures forall c :: c in r ==> !c.ConfigureHandler?
  {
    var hs := Configure(hooks, name, EndpointCfg(e));
    var r := [open] + hs + [ConfigureActivity(typeId, EndpointCfg(e), CompensateCfg(name))];
    assert r[1..|r| - 1] == hs;
    assert forall h :: h in hooks ==> Hook(h, name, EndpointCfg(e)) in hs by {
      forall h | h in hooks ensures Hook(h, name, EndpointCfg(e)) in hs {
        var i :| 0 <= i < |hooks| && hooks[i] == h;
        assert hs[i] == Hook(h, name, EndpointCfg(e));
      }
    }
    r
  }

  /** The compensate endpoints of the activities of the execute endpoint `e`, one after the other. */
  function ActivityCalls(env: Env, f: Formatter, hooks: seq<HookId>, g: Registrations, e: Name, acts: seq<ActivityRegistration>): (r: seq<Call>)
    ensures forall a, c :: a in acts && c in CompensateCalls(env, f, hooks, g, e, a) ==> c in r
    ensures forall c :: c in r ==> !c.ConfigureHandler?
    decreases |acts|
  {
    if |acts| == 0 then []
    else
      var first := CompensateCalls(env, f, hooks, g, e, acts[0]);
      var rest := ActivityCalls(env, f, hooks, g, e, acts[1..]);
      assert forall a :: a in acts ==> a == acts[0] || a in acts[1..];
      first + rest
  }

  /**
   Compensate endpoints are opened once per activity, not once per name: two
   activities whose compensate endpoint has the same name and no definition of
   their own make the same opening call twice.
   */
  lemma SharedCompensateNameOpenedTwice(env: Env, f: Formatter, hooks: seq<HookId>, g: Registrations, e: Name,
                                        a: ActivityRegistration, b: ActivityRegistration)
    requires env.compensateName(f, a.typeId) == env.compensateName(f, b.typeId)
    requires a.compensate.None? && b.compensate.None?
    ensures var r := ActivityCalls(env, f, hooks, g, e, [a, b]);
      var n := env.compensateName(f, a.typeId);
      var d := ExplicitDefinition(env, f, g, n);
      && |r| == 2 * |hooks| + 4
      && r[0] == (if d.Some? then ReceiveEndpoint(d.value) else ReceiveEndpointNamed(n))
      && r[|hooks| + 2] == r[0]
  {
    var first := CompensateCalls(env, f, hooks, g, e, a);
    var second := CompensateCalls(env, f, hooks, g, e, b);
    assert [a, b][1..] == [b];
    assert [b][1..] == [];
    assert ActivityCalls(env, f, hooks, g, e, [b]) == second;
    assert ActivityCalls(env, f, hooks, g, e, [a, b]) == first + second;
  }

  /** The configure calls for the registrations of one kind gathered by `ep`, on `ep`'s configurator. */
  function KindCalls(ep: Endpoint, kind: Kind): (r: seq<Call>)
    ensures forall x :: x in Gathered(ep, kind) ==> ConfigureHandler(kind, x.typeId, EndpointCfg(ep.name)) in r
    ensures forall c :: c in r ==> c.ConfigureHandler? && c.kind == kind && HandlerOf(ep, c)
  {
    ConfigureAll(kind, Gathered(ep, kind), EndpointCfg(ep.name))
  }

  /** What the callback of a main endpoint does after the hooks: the handlers and compensate endpoints, kind by kind. */
  function HandlerCalls(env: Env, f: Formatter, hooks: seq<HookId>, g: Registrations, ep: Endpoint): (r: seq<Call>)
    ensures forall k, x :: x in Gathered(ep, k) ==> ConfigureHandler(k, x.typeId, EndpointCfg(ep.name)) in r
    ensures forall c :: c in ActivityCalls(env, f, hooks, g, ep.name, ep.activities) ==> c in r
    ensures forall c :: c in r && c.ConfigureHandler? ==> HandlerOf(ep, c)
  {
    var cs := KindCalls(ep, ConsumerKind);
    var ss := KindCalls(ep, SagaKind);
    var acts := ActivityCalls(env, f, hooks, g, ep.name, ep.activities);
    var es := KindCalls(ep, ExecuteActivityKind);
    var fs := KindCalls(ep, FutureKind);
    assert forall k, x :: x in Gathered(ep, k) ==> ConfigureHandler(k, x.typeId, EndpointCfg(ep.name)) in cs + ss + acts + es + fs by {
      forall k, x | x in Gathered(ep, k) ensures ConfigureHandler(k, x.typeId, EndpointCfg(ep.name)) in cs + ss + acts + es + fs {
        if k == ConsumerKind {
          assert ConfigureHandler(k, x.typeId, EndpointCfg(ep.name)) in cs;
        } else if k == SagaKind {
          assert ConfigureHandler(k, x.typeId, EndpointCfg(ep.name)) in ss;
        } else if k == ExecuteActivityKind {
          assert ConfigureHandler(k, x.typeId, EndpointCfg(ep.name)) in es;
        } else {
          assert ConfigureHandler(k, x.typeId, EndpointCfg(ep.name)) in fs;
        }
      }
    }
    cs + ss + acts + es + fs
  }

  /** The ReceiveEndpoint call of a main endpoint followed by what its callback does. */
  function EndpointCalls(env: Env, f: Formatter, hooks: seq<HookId>, g: Registrations, ep: Endpoint): (r: seq<Call>)
    ensures |r| >= 1 + |hooks| && r[0] == ReceiveEndpoint(ep.definition)
    ensures forall i :: 0 <= i < |hooks| ==> r[1 + i] == Hook(hooks[i], DefName(env, f, ep.definition), EndpointCfg(ep.name))
    ensures forall k, x :: x in Gathered(ep, k) ==> ConfigureHandler(k, x.typeId, EndpointCfg(ep.name)) in r
    ensures forall c :: c in ActivityCalls(env, f, hooks, g, ep.name, ep.activities) ==> c in r
    ensures forall c :: c in r && c.ConfigureHandler? ==> HandlerOf(ep, c)
  {
    var hs := Configure(hooks, DefName(env, f, ep.definition), EndpointCfg(ep.name));
    var tail := HandlerCalls(env, f, hooks, g, ep);
    var r := [ReceiveEndpoint(ep.definition)] + hs + tail;
    assert forall i :: 0 <= i < |hooks| ==> r[1 + i] == hs[i];
    assert forall c :: c in r ==> c == r[0] || c in hs || c in tail;
    r
  }

  /** A handler configure call on `ep` stands for a registration gathered by `ep`, of the matching kind. */
  predicate HandlerOf(ep: Endpoint, c: Call)
    requires c.ConfigureHandler?
  {
    && c.cfg == EndpointCfg(ep.name)
    && exists x :: x in Gathered(ep, c.kind) && x.typeId == c.typeId
  }

  function Gathered(ep: Endpoint, kind: Kind): seq<Registration> {
    match kind
    case ConsumerKind => ep.consumers
    case SagaKind => ep.sagas
    case ExecuteActivityKind => ep.executeActivities
    case FutureKind => ep.futures
  }

  function CallsOf(env: Env, f: Formatter, hooks: seq<HookId>, g: Registrations): Endpoint -> seq<Call> {
    (ep: Endpoint) => EndpointCalls(env, f, hooks, g, ep)
  }

  // ---------------------------------------------------------------------------
  // The hook cache and ConfigureEndpoints
  // ---------------------------------------------------------------------------

  /** What the service provider resolves; None: not registered. */
  datatype Services = Services(hookList: Option<seq<HookId>>, singleHook: Option<HookId>, formatter: Option<Formatter>)

  /** The context's state: its services and the cached composite hook. */
  datatype Context = Context(services: Services, cache: Option<seq<HookId>>)

  datatype Lookup = Lookup(hooks: seq<HookId>, context: Context, queries: nat)

  /**
   GetConfigureReceiveEndpoints: the cached composite when there is one;
   otherwise the registered hook list, else the single registered hook, else
   no hooks, which becomes the cache. `queries` counts service lookups.
   */
  function GetConfigureReceiveEndpoints(c: Context): (r: Lookup)
    ensures r.context.services == c.services && r.context.cache == Some(r.hooks)
    ensures c.cache.Some? ==> r.hooks == c.cache.value && r.context == c && r.queries == 0
    ensures c.cache.None? ==> 1 <= r.queries <= 2
    ensures c.cache.None? && c.services.hookList.Some? ==> r.hooks == c.services.hookList.value && r.queries == 1
    ensures c.cache.None? && c.services.hookList.None? ==>
      r.hooks == (if c.services.singleHook.Some? then [c.services.singleHook.value] else [])
  {
    if c.cache.Some? then Lookup(c.cache.value, c, 0)
    else
      var (hooks, queries) :=
        if c.services.hookList.Some? then (c.services.hookList.value, 1)
        else if c.services.singleHook.Some? then ([c.services.singleHook.value], 2)
        else ([], 2);
      Lookup(hooks, c.(cache := Some(hooks)), queries)
  }

  /** After the first call the cached hooks are returned without consulting the services again. */
  lemma CacheIdempotent(c: Context)
    ensures var first := GetConfigureReceiveEndpoints(c);
      var second := GetConfigureReceiveEndpoints(first.context);
      && second.hooks == first.hooks
      && second.context == first.context
      && second.queries == 0
  {
  }

  datatype Configured = Configured(endpoints: seq<Endpoint>, calls: seq<Call>, context: Context)

  /**
   ConfigureEndpoints on the context `c` with the registrations `regs`: the
   main endpoints it creates, the calls it makes one endpoint after the other,
   and the context afterwards. No two main endpoints share a name; compensate
   endpoints are opened once per activity (see SharedCompensateNameOpenedTwice).
   */
  function ConfigureEndpoints(c: Context, env: Env, given: Option<Formatter>, regs: Registrations): (r: Configured)
    ensures r.context.cache.Some? && r.context.services == c.services
    ensures c.cache.Some? ==> r.context == c
    ensures forall i, j :: 0 <= i < j < |r.endpoints| ==> r.endpoints[i].name != r.endpoints[j].name
  {
    var f := SelectFormatter(given, c.services.formatter);
    var lookup := GetConfigureReceiveEndpoints(c);
    var g := Contribute(env, regs);
    var plan := Plan(env, f, g);
    OneEndpointPerName(env, f, g);
    Configured(plan, FlatMap(plan, CallsOf(env, f, lookup.hooks, g)), lookup.context)
  }

  // ---------------------------------------------------------------------------
  // Properties of the whole configuration
  // ---------------------------------------------------------------------------

  /** The endpoint a main name gets, and where its calls land in the whole trace. */
  lemma EndpointOf(c: Context, env: Env, given: Option<Formatter>, regs: Registrations, e: Name)
    ensures var f := SelectFormatter(given, c.services.formatter);
      var g := Contribute(env, regs);
      var r := ConfigureEndpoints(c, env, given, regs);
      e in EndpointNames(env, f, g) ==>
        forall call :: call in EndpointCalls(env, f, GetConfigureReceiveEndpoints(c).hooks, g, EndpointFor(env, f, g, e)) ==>
          call in r.calls
  {
    var f := SelectFormatter(given, c.services.formatter);
    var g := Contribute(env, regs);
    var hooks := GetConfigureReceiveEndpoints(c).hooks;
    var names := EndpointNames(env, f, g);
    if e in names {
      var i :| 0 <= i < |names| && names[i] == e;
      var p := Plan(env, f, g);
      var ep := EndpointFor(env, f, g, e);
      assert p[i] == ep && ep in p;
      assert CallsOf(env, f, hooks, g)(ep) == EndpointCalls(env, f, hooks, g, ep);
    }
  }

  /** The registrations of one handler kind. */
  function Listed(regs: Registrations, kind: Kind): seq<Registration> {
    match kind
    case ConsumerKind => regs.consumers
    case SagaKind => regs.sagas
    case ExecuteActivityKind => regs.executeActivities
    case FutureKind => regs.futures
  }

  /** The endpoint name a handler kind groups by: the execute name for execute activities. */
  function HandlerEndpoint(env: Env, f: Formatter, kind: Kind, t: TypeId): Name {
    if kind == ExecuteActivityKind then env.executeName(f, t) else env.endpointName(f, t)
  }

  /**
   A contributing consumer, saga, execute activity or future is configured
   on the endpoint named after it, unless that name is some activity's
   compensate name.
   */
  lemma HandlerConfigured(c: Context, env: Env, given: Option<Formatter>, regs: Registrations, kind: Kind, x: Registration)
    requires x in Listed(regs, kind) && Contributes(env, x.typeId)
    ensures var f := SelectFormatter(given, c.services.formatter);
      var e := HandlerEndpoint(env, f, kind, x.typeId);
      !CompensateName(env, f, Contribute(env, regs), e) ==>
        ConfigureHandler(kind, x.typeId, EndpointCfg(e)) in ConfigureEndpoints(c, env, given, regs).calls
  {
    var f := SelectFormatter(given, c.services.formatter);
    var g := Contribute(env, regs);
    var e := HandlerEndpoint(env, f, kind, x.typeId);
    if !CompensateName(env, f, g, e) {
      HandlerGathered(env, f, regs, kind, x);
      EndpointOf(c, env, given, regs, e);
      var ep := EndpointFor(env, f, g, e);
      assert ConfigureHandler(kind, x.typeId, EndpointCfg(e)) in EndpointCalls(env, f, GetConfigureReceiveEndpoints(c).hooks, g, ep);
    }
  }

  /** A contributing handler outside the compensate names is gathered by the main endpoint named after it. */
  lemma HandlerGathered(env: Env, f: Formatter, regs: Registrations, kind: Kind, x: Registration)
    requires x in Listed(regs, kind) && Contributes(env, x.typeId)
    ensures var g := Contribute(env, regs);
      var e := HandlerEndpoint(env, f, kind, x.typeId);
      !CompensateName(env, f, g, e) ==>
        && e in EndpointNames(env, f, g)
        && EndpointFor(env, f, g, e).name == e
        && x in Gathered(EndpointFor(env, f, g, e), kind)
  {
    var g := Contribute(env, regs);
    var e := HandlerEndpoint(env, f, kind, x.typeId);
    if !CompensateName(env, f, g, e) {
      match kind {
        case ConsumerKind =>
          assert x in g.consumers && e in Keys(g.consumers, EndpointKey(env, f));
        case SagaKind =>
          assert x in g.sagas && e in Keys(g.sagas, EndpointKey(env, f));
        case ExecuteActivityKind =>
          assert x in g.executeActivities && e in Keys(g.executeActivities, ExecuteKey(env, f));
        case FutureKind =>
          assert x in g.futures && e in Keys(g.futures, EndpointKey(env, f));
      }
      assert e in EndpointNames(env, f, g);
      assert x in Gathered(EndpointFor(env, f, g, e), kind);
    }
  }

  /**
   A contributing activity on a main execute endpoint gets its compensate
   endpoint: all of its compensate calls are made.
   */
  lemma ActivityCompensated(c: Context, env: Env, given: Option<Formatter>, regs: Registrations, a: ActivityRegistration)
    requires a in regs.activities && Contributes(env, a.typeId)
    ensures var f := SelectFormatter(given, c.services.formatter);
      var g := Contribute(env, regs);
      var e := env.executeName(f, a.typeId);
      !CompensateName(env, f, g, e) ==>
        forall call :: call in CompensateCalls(env, f, GetConfigureReceiveEndpoints(c).hooks, g, e, a) ==>
          call in ConfigureEndpoints(c, env, given, regs).calls
  {
    var f := SelectFormatter(given, c.services.formatter);
    var g := Contribute(env, regs);
    var e := env.executeName(f, a.typeId);
    if !CompensateName(env, f, g, e) {
      assert a in g.activities && e in Keys(g.activities, ActivityExecuteKey(env, f));
      assert e in EndpointNames(env, f, g);
      EndpointOf(c, env, given, regs, e);
      var ep := EndpointFor(env, f, g, e);
      assert a in ep.activities;
    }
  }

  /** What an endpoint gathers under some main name passed the filter. */
  lemma GatheredContributes(env: Env, f: Formatter, regs: Registrations, e: Name, kind: Kind)
    ensures forall x :: x in Gathered(EndpointFor(env, f, Contribute(env, regs), e), kind) ==> Contributes(env, x.typeId)
  {
    var g := Contribute(env, regs);
    forall x | x in Gathered(EndpointFor(env, f, g, e), kind) ensures Contributes(env, x.typeId) {
      match kind
      case ConsumerKind => assert x in g.consumers;
      case SagaKind => assert x in g.sagas;
      case ExecuteActivityKind => assert x in g.executeActivities;
      case FutureKind => assert x in g.futures;
    }
  }

  lemma HandlerCallContributes(env: Env, f: Formatter, hooks: seq<HookId>, regs: Registrations, call: Call)
    ensures call.ConfigureHandler? && call in FlatMap(Plan(env, f, Contribute(env, regs)), CallsOf(env, f, hooks, Contribute(env, regs)))
      ==> Contributes(env, call.typeId)
  {
    var g := Contribute(env, regs);
    var plan := Plan(env, f, g);
    if call.ConfigureHandler? && call in FlatMap(plan, CallsOf(env, f, hooks, g)) {
      var ep :| ep in plan && call in CallsOf(env, f, hooks, g)(ep);
      assert call in EndpointCalls(env, f, hooks, g, ep);
      assert HandlerOf(ep, call);
      var x :| x in Gathered(ep, call.kind) && x.typeId == call.typeId;
      GatheredContributes(env, f, regs, ep.name, call.kind);
    }
  }

  /** Every handler configure call is for a registration that passed the filter and was not configured before. */
  lemma OnlyContributingConfigured(c: Context, env: Env, given: Option<Formatter>, regs: Registrations)
    ensures forall call :: call in ConfigureEndpoints(c, env, given, regs).calls && call.ConfigureHandler? ==>
      Contributes(env, call.typeId)
  {
    var f := SelectFormatter(given, c.services.formatter);
    forall call | call in ConfigureEndpoints(c, env, given, regs).calls && call.ConfigureHandler?
      ensures Contributes(env, call.typeId)
    {
      HandlerCallContributes(env, f, GetConfigureReceiveEndpoints(c).hooks, regs, call);
    }
  }

  /** The hooks run first on every main endpoint, with that endpoint's name and configurator. */
  lemma HooksSeeEndpointName(env: Env, f: Formatter, hooks: seq<HookId>, g: Registrations, e: Name)
    ensures var r := EndpointCalls(env, f, hooks, g, EndpointFor(env, f, g, e));
      forall i :: 0 <= i < |hooks| ==> r[1 + i] == Hook(hooks[i], e, EndpointCfg(e))
  {
    DefinitionNamed(env, f, g, e);
  }

  /** An activity whose execute name is also a compensate name gets no execute endpoint at all. */
  lemma ShadowedExecuteEndpoint(env: Env, f: Formatter, g: Registrations, a: ActivityRegistration, b: ActivityRegistration)
    requires a in g.activities && b in g.activities
    requires env.executeName(f, a.typeId) == env.compensateName(f, b.typeId)
    ensures forall ep :: ep in Plan(env, f, g) ==> a !in ep.activities
  {
    var p := Plan(env, f, g);
    var names := EndpointNames(env, f, g);
    forall ep | ep in p ensures a !in ep.activities {
      var i :| 0 <= i < |p| && p[i] == ep;
      assert names[i] in names;
    }
  }
}

=== FILE: http_consumer_action.dfy ===
/**
 The HTTP receive adapter of MassTransit.HttpTransport: delivery bookkeeping,
 the mapping from a delivery's outcome to the HTTP response, and the stop
 protocol that drains in-flight deliveries.

 One `Handle` call is split into `Begin` (counters, pending map) and `Finish`
 (observer calls, response, cleanup, drain signal), so that several deliveries
 can be interleaved with each other and with `Stop`. `Begin`, `Finish` and
 `Stop` are each one atomic step. The code runs them as several separate
 operations, so interleavings inside one of them (such as a `Stop` between
 the shutdown test and the counter increment of a `Handle`) are not modelled.
 */
module HttpConsumerAction {
  import opened Wrappers

  /** A delivery tag; the source draws a fresh one from NewId for every request. */
  type Tag = nat
  /** Identifies the request whose receive context a delivery registers. */
  type RequestId = nat

  const Accepted := 202
  const InternalServerError := 500
  const ServiceUnavailable := 503
  /** The status of a response whose status nobody has set. */
  const DefaultStatus := 200

  /** The texts the adapter writes into a response body. */
  datatype Text = ShuttingDownText | DeliveredText | ErrorText

  function Literal(t: Text): string {
    match t
    case ShuttingDownText => "SHUTTING DOWN"
    case DeliveredText => "DELIVERED"
    case ErrorText => "ERROR"
  }

  /** The mutable fields of one HttpConsumerAction. */
  datatype ConsumerState = ConsumerState(
    deliveryCount: int,
    currentPending: int,
    maxPending: int,
    pending: map<Tag, RequestId>,
    shuttingDown: bool,
    deliveryComplete: bool)   // the one-shot drain signal has been set

  const Initial := ConsumerState(0, 0, 0, map[], false, false)

  /** What one Handle call does to the outside world, in order. */
  datatype Action =
    | SetStatus(code: int)
    | Write(text: Text)
    | CallNext              // awaits the OWIN continuation `next()`
    | LogDuplicate(tag: Tag)
    | PreReceive
    | SendToPipe
    | AwaitCompletion
    | PostReceive
    | ReceiveFault
    | SignalDrain           // TrySetResult on the drain signal

  /** A response: its status and the texts written to its body, in order. */
  datatype Response = Response(status: int, body: seq<Text>)

  const DefaultResponse := Response(DefaultStatus, [])

  function BodyString(body: seq<Text>): string {
    if |body| == 0 then "" else Literal(body[0]) + BodyString(body[1..])
  }

  function Apply(r: Response, a: Action): Response {
    match a
    case SetStatus(code) => r.(status := code)
    case Write(text) => r.(body := r.body + [text])
    case _ => r
  }

  /** The response after the actions of `trace` were applied to `r`. */
  function Respond(r: Response, trace: seq<Action>): Response
    decreases |trace|
  {
    if |trace| == 0 then r else Respond(Apply(r, trace[0]), trace[1..])
  }

  lemma {:induction false} RespondConcat(r: Response, a: seq<Action>, b: seq<Action>)
    ensures Respond(r, a + b) == Respond(Respond(r, a), b)
    decreases |a|
  {
    if |a| == 0 {
      assert a + b == b;
    } else {
      assert (a + b)[1..] == a[1..] + b;
      RespondConcat(Apply(r, a[0]), a[1..], b);
    }
  }

  /** Actions other than SetStatus and Write leave the response alone. */
  lemma {:induction false} RespondIgnores(r: Response, t: seq<Action>)
    requires forall i :: 0 <= i < |t| ==> !t[i].SetStatus? && !t[i].Write?
    ensures Respond(r, t) == r
    decreases |t|
  {
    if |t| > 0 {
      RespondIgnores(r, t[1..]);
    }
  }

  lemma RespondPair(r: Response, code: int, text: Text)
    ensures Respond(r, [SetStatus(code), Write(text)]) == Response(code, r.body + [text])
  {
    var t := [SetStatus(code), Write(text)];
    assert t[1..] == [Write(text)] && t[1..][1..] == [];
    calc {
      Respond(r, t);
      Respond(Apply(r, SetStatus(code)), t[1..]);
      Respond(Apply(r.(status := code), Write(text)), t[1..][1..]);
    }
  }

  /** The effect of the compare-exchange loop on the maximum, taken as one atomic step. */
  function RaiseMax(max: int, current: int): (r: int)
    ensures r >= max && r >= current
    ensures r == max || r == current
  {
    if current > max then current else max
  }

  // ---------------------------------------------------------------------------
  // Handle, first half
  // ---------------------------------------------------------------------------

  /** A delivery between its Begin and its Finish. */
  datatype Delivery = Delivery(tag: Tag, request: RequestId, trace: seq<Action>)

  datatype BeginResult =
    | Aborted(trace: seq<Action>)   // the `next()` of the shutdown branch threw
    | Dispatching(state: ConsumerState, delivery: Delivery)

  const ShutdownReply: seq<Action> := [SetStatus(ServiceUnavailable), Write(ShuttingDownText), CallNext]

  /** The two increments, the maximum, and TryAdd, which keeps an existing entry. */
  function Track(s: ConsumerState, tag: Tag, request: RequestId): (t: ConsumerState)
    ensures t.deliveryCount == s.deliveryCount + 1
    ensures t.currentPending == s.currentPending + 1
    ensures t.maxPending >= t.currentPending && t.maxPending >= s.maxPending
    ensures t.shuttingDown == s.shuttingDown && t.deliveryComplete == s.deliveryComplete
    ensures t.pending.Keys == s.pending.Keys + {tag}
    ensures forall k :: k in s.pending ==> t.pending[k] == s.pending[k]
    ensures tag !in s.pending ==> t.pending[tag] == request
  {
    var current := s.currentPending + 1;
    s.(deliveryCount := s.deliveryCount + 1,
       currentPending := current,
       maxPending := RaiseMax(s.maxPending, current),
       pending := if tag in s.pending then s.pending else s.pending[tag := request])
  }

  /** What Begin emits: the shutdown reply, and the log line of a duplicate tag. */
  function Preamble(s: ConsumerState, tag: Tag): seq<Action> {
    (if s.shuttingDown then ShutdownReply else []) + (if tag in s.pending then [LogDuplicate(tag)] else [])
  }

  /**
   Handle up to and including the TryAdd. The shutdown branch replies 503 but
   does not end the request. `nextThrows` says whether its `next()` throws.
   */
  function Begin(s: ConsumerState, tag: Tag, request: RequestId, nextThrows: bool): (r: BeginResult)
    ensures r.Aborted? <==> s.shuttingDown && nextThrows
    ensures r.Aborted? ==> r.trace == ShutdownReply
    ensures r.Dispatching? ==> r.state == Track(s, tag, request) && r.delivery.tag == tag && r.delivery.request == request
  {
    if s.shuttingDown && nextThrows then Aborted(ShutdownReply)
    else Dispatching(Track(s, tag, request), Delivery(tag, request, Preamble(s, tag)))
  }

  // ---------------------------------------------------------------------------
  // Handle, second half
  // ---------------------------------------------------------------------------

  /** Which call of the try block throws first, if any. */
  datatype TryFault = NoFault | PreReceiveThrows | SendThrows | CompletionFaults | NextThrows | PostReceiveThrows

  /** How the collaborators behave during one delivery's second half. */
  datatype Script = Script(fault: TryFault, receiveFaultThrows: bool, lastNextThrows: bool)

  /** Whether the task returned by Handle completes or faults. */
  datatype Ending = Returned | Threw

  datatype Finished = Finished(state: ConsumerState, trace: seq<Action>, ending: Ending)

  /** The calls of the try block when none of them throws. */
  const SuccessPath: seq<Action> :=
    [PreReceive, SendToPipe, AwaitCompletion, SetStatus(Accepted), Write(DeliveredText), CallNext, PostReceive]

  /** The try block reached the 202 response before it ended. */
  predicate ReachesAccepted(f: TryFault) {
    f == NoFault || f == NextThrows || f == PostReceiveThrows
  }

  /** An exception leaves Handle from the catch block, skipping the last `next()`. */
  predicate Escapes(sc: Script) {
    sc.fault != NoFault && sc.receiveFaultThrows
  }

  /** The calls of the try block, up to and including the one that throws. */
  function Tried(f: TryFault): seq<Action> {
    match f
    case PreReceiveThrows => [PreReceive]
    case SendThrows => [PreReceive, SendToPipe]
    case CompletionFaults => [PreReceive, SendToPipe, AwaitCompletion]
    case NextThrows => [PreReceive, SendToPipe, AwaitCompletion, SetStatus(Accepted), Write(DeliveredText), CallNext]
    case PostReceiveThrows => SuccessPath
    case NoFault => SuccessPath
  }

  lemma TriedNextCount(f: TryFault)
    ensures multiset(Tried(f))[CallNext] == if ReachesAccepted(f) then 1 else 0
  {
    if ReachesAccepted(f) {
      AcceptedNextCount();
    } else {
      assert CallNext !in Tried(f);
    }
  }

  /** The try block up to its `next()`, and the whole success path, each call `next()` once. */
  lemma AcceptedNextCount()
    ensures multiset(SuccessPath[..6])[CallNext] == 1
    ensures multiset(SuccessPath)[CallNext] == 1
  {
    var head := SuccessPath[..5];
    assert CallNext !in head;
    assert SuccessPath[..6] == head + [CallNext];
    CountConcat(head, [CallNext], CallNext);
    assert SuccessPath == SuccessPath[..6] + [PostReceive];
    CountConcat(SuccessPath[..6], [PostReceive], CallNext);
  }

  lemma CountConcat<T>(a: seq<T>, b: seq<T>, x: T)
    ensures multiset(a + b)[x] == multiset(a)[x] + multiset(b)[x]
  {
  }

  /** The calls of the catch block. */
  function Caught(sc: Script): seq<Action> {
    if sc.fault == NoFault then []
    else [ReceiveFault] + (if sc.receiveFaultThrows then [] else [SetStatus(InternalServerError), Write(ErrorText)])
  }

  /** The decrement in the finally block reaches zero during shutdown. */
  predicate Drains(s: ConsumerState) {
    s.currentPending - 1 == 0 && s.shuttingDown
  }

  /** The finally block and the final `next()`. */
  function Closing(s: ConsumerState, sc: Script): seq<Action> {
    (if Drains(s) then [SignalDrain] else []) + (if Escapes(sc) then [] else [CallNext])
  }

  /** The finally block: TryRemove, the decrement and the drain signal. */
  function Release(s: ConsumerState, tag: Tag): (t: ConsumerState)
    ensures t.deliveryCount == s.deliveryCount
    ensures t.currentPending == s.currentPending - 1
    ensures t.maxPending == s.maxPending
    ensures t.shuttingDown == s.shuttingDown
    ensures t.pending.Keys == s.pending.Keys - {tag}
    ensures forall k :: k in t.pending ==> t.pending[k] == s.pending[k]
    ensures t.deliveryComplete <==> s.deliveryComplete || (t.currentPending == 0 && s.shuttingDown)
  {
    s.(pending := s.pending - {tag},
       currentPending := s.currentPending - 1,
       deliveryComplete := s.deliveryComplete || Drains(s))
  }

  /**
   Handle from PreReceive on: the try block, the catch block when something
   in the try block threw, the finally block, and the final `next()`.
   */
  function Finish(s: ConsumerState, d: Delivery, sc: Script): (r: Finished)
    ensures r.state == Release(s, d.tag)
    ensures SignalDrain in r.trace <==> r.state.currentPending == 0 && s.shuttingDown
    ensures PreReceive in r.trace
    ensures ReceiveFault in r.trace <==> sc.fault != NoFault
    ensures PostReceive in r.trace <==> sc.fault == NoFault || sc.fault == PostReceiveThrows
    ensures r.ending == Threw <==> Escapes(sc) || sc.lastNextThrows
  {
    var trace := Tried(sc.fault) + Caught(sc) + Closing(s, sc);
    assert trace[0] == PreReceive;
    assert PostReceive !in Caught(sc) + Closing(s, sc);
    assert ReceiveFault !in Tried(sc.fault) + Closing(s, sc);
    assert SignalDrain !in Tried(sc.fault) + Caught(sc);
    Finished(Release(s, d.tag), trace, if Escapes(sc) || sc.lastNextThrows then Threw else Returned)
  }

  /** How many calls of the success path the try block makes, the throwing one included. */
  function Reached(f: TryFault): (n: nat)
    ensures 1 <= n <= |SuccessPath|
    ensures n == |SuccessPath| <==> f == NoFault || f == PostReceiveThrows
  {
    match f
    case PreReceiveThrows => 1
    case SendThrows => 2
    case CompletionFaults => 3
    case NextThrows => 6
    case PostReceiveThrows => 7
    case NoFault => 7
  }

  /** The try block runs a prefix of the success path, stopping at the call that throws. */
  lemma TriedPrefix(f: TryFault)
    ensures Tried(f) == SuccessPath[..Reached(f)]
  {
  }

  /**
   The calls of one delivery, starting at index `p` of `t`, follow the order of
   the try, catch and finally blocks: the success path up to and including the
   call that throws, then ReceiveFault, then the 500 "ERROR" response unless
   ReceiveFault throws; the last call is the last `next()` unless an exception
   escapes.
   */
  predicate CallOrder(t: seq<Action>, p: nat, sc: Script) {
    var n := Reached(sc.fault);
    && |t| > p + n
    && t[p..p + n] == SuccessPath[..n]
    && (sc.fault != NoFault ==> t[p + n] == ReceiveFault)
    && (sc.fault != NoFault && !sc.receiveFaultThrows ==>
          |t| > p + n + 2 && t[p + n + 1] == SetStatus(InternalServerError) && t[p + n + 2] == Write(ErrorText))
    && (!Escapes(sc) ==> t[|t| - 1] == CallNext)
  }

  /** Calls in order stay in order behind any prefix. */
  lemma CallOrderShift(pre: seq<Action>, t: seq<Action>, sc: Script)
    requires CallOrder(t, 0, sc)
    ensures CallOrder(pre + t, |pre|, sc)
  {
    var n := Reached(sc.fault);
    assert (pre + t)[|pre|..|pre| + n] == t[0..n];
    assert forall i :: 0 <= i < |t| ==> (pre + t)[|pre| + i] == t[i];
  }

  /**
   The order of the calls in the second half: the success path in order
   (PreReceive, Send, CompleteTask, 202 "DELIVERED", `next()`, PostReceive) up
   to the call that throws; then ReceiveFault, and the 500 "ERROR" response
   after it unless ReceiveFault throws; then the drain signal and the last
   `next()`.
   */
  lemma FinishOrder(s: ConsumerState, d: Delivery, sc: Script)
    ensures CallOrder(Finish(s, d, sc).trace, 0, sc)
    ensures var t := Finish(s, d, sc).trace;
      Drains(s) ==> |t| >= 2 && t[|t| - (if Escapes(sc) then 1 else 2)] == SignalDrain
  {
    var n := Reached(sc.fault);
    var tr := Tried(sc.fault);
    var ca := Caught(sc);
    var cl := Closing(s, sc);
    TriedPrefix(sc.fault);
    assert |tr| == n;
    assert Finish(s, d, sc).trace == tr + ca + cl;
    CatchShape(sc);
    ClosingShape(s, sc);
    ConcatParts(tr, ca, cl);
  }

  lemma CatchShape(sc: Script)
    ensures sc.fault == NoFault <==> |Caught(sc)| == 0
    ensures sc.fault != NoFault ==> Caught(sc)[0] == ReceiveFault
    ensures sc.fault != NoFault && !sc.receiveFaultThrows ==>
      |Caught(sc)| == 3 && Caught(sc)[1] == SetStatus(InternalServerError) && Caught(sc)[2] == Write(ErrorText)
  {
  }

  lemma ClosingShape(s: ConsumerState, sc: Script)
    ensures !Escapes(sc) ==> |Closing(s, sc)| > 0 && Closing(s, sc)[|Closing(s, sc)| - 1] == CallNext
    ensures Drains(s) ==> |Closing(s, sc)| == (if Escapes(sc) then 1 else 2) && Closing(s, sc)[0] == SignalDrain
    ensures sc.fault == NoFault ==> !Escapes(sc)
  {
  }

  /** Indexing into a concatenation of three parts. */
  lemma ConcatParts<T>(a: seq<T>, b: seq<T>, c: seq<T>)
    ensures (a + b + c)[..|a|] == a
    ensures forall i :: 0 <= i < |b| ==> (a + b + c)[|a| + i] == b[i]
    ensures forall i :: 0 <= i < |c| ==> (a + b + c)[|a| + |b| + i] == c[i]
  {
  }

  // ---------------------------------------------------------------------------
  // Handle as one uninterrupted call
  // ---------------------------------------------------------------------------

  datatype Handled = Handled(state: ConsumerState, trace: seq<Action>, ending: Ending)

  function Handle(s: ConsumerState, tag: Tag, request: RequestId, earlyNextThrows: bool, sc: Script): (r: Handled)
    ensures r.ending == Threw <==> (s.shuttingDown && earlyNextThrows) || Escapes(sc) || sc.lastNextThrows
    ensures !(s.shuttingDown && earlyNextThrows) ==>
      && r.state.deliveryCount == s.deliveryCount + 1
      && r.state.currentPending == s.currentPending
      && r.state.maxPending >= s.currentPending + 1
      && tag !in r.state.pending
  {
    match Begin(s, tag, request, earlyNextThrows)
    case Aborted(trace) => Handled(s, trace, Threw)
    case Dispatching(t, d) =>
      var f := Finish(t, d, sc);
      Handled(f.state, d.trace + f.trace, f.ending)
  }

  /** The status and body each outcome of a request gets, defined by cases on the outcome. */
  function ExpectedResponse(shuttingDown: bool, sc: Script): Response {
    var prefix := if shuttingDown then [ShuttingDownText] else [];
    var delivered := if ReachesAccepted(sc.fault) then [DeliveredText] else [];
    if sc.fault == NoFault then Response(Accepted, prefix + [DeliveredText])
    else if !sc.receiveFaultThrows then Response(InternalServerError, prefix + delivered + [ErrorText])
    else if ReachesAccepted(sc.fault) then Response(Accepted, prefix + delivered)
    else Response(if shuttingDown then ServiceUnavailable else DefaultStatus, prefix)
  }

  lemma RespondPreamble(s: ConsumerState, tag: Tag)
    ensures Respond(DefaultResponse, Preamble(s, tag)) ==
      if s.shuttingDown then Response(ServiceUnavailable, [ShuttingDownText]) else DefaultResponse
  {
    var early := if s.shuttingDown then ShutdownReply else [];
    var dup := if tag in s.pending then [LogDuplicate(tag)] else [];
    RespondConcat(DefaultResponse, early, dup);
    RespondIgnores(Respond(DefaultResponse, early), dup);
    if s.shuttingDown {
      RespondConcat(DefaultResponse, [SetStatus(ServiceUnavailable), Write(ShuttingDownText)], [CallNext]);
      RespondPair(DefaultResponse, ServiceUnavailable, ShuttingDownText);
      RespondIgnores(Response(ServiceUnavailable, [ShuttingDownText]), [CallNext]);
    }
  }

  lemma RespondTried(r: Response, f: TryFault)
    ensures Respond(r, Tried(f)) == if ReachesAccepted(f) then Response(Accepted, r.body + [DeliveredText]) else r
  {
    var p := Tried(f);
    if ReachesAccepted(f) {
      var a := [PreReceive, SendToPipe, AwaitCompletion];
      var b := [SetStatus(Accepted), Write(DeliveredText)];
      var c := p[5..];
      assert p == a + b + c;
      RespondConcat(r, a + b, c);
      RespondConcat(r, a, b);
      RespondIgnores(r, a);
      RespondPair(r, Accepted, DeliveredText);
      RespondIgnores(Response(Accepted, r.body + [DeliveredText]), c);
    } else {
      RespondIgnores(r, p);
    }
  }

  lemma RespondCaught(r: Response, sc: Script)
    ensures Respond(r, Caught(sc)) ==
      if sc.fault != NoFault && !sc.receiveFaultThrows then Response(InternalServerError, r.body + [ErrorText]) else r
  {
    if sc.fault != NoFault && !sc.receiveFaultThrows {
      RespondConcat(r, [ReceiveFault], [SetStatus(InternalServerError), Write(ErrorText)]);
      RespondIgnores(r, [ReceiveFault]);
      RespondPair(r, InternalServerError, ErrorText);
    } else {
      RespondIgnores(r, Caught(sc));
    }
  }

  /**
   The calls of one uninterrupted Handle in order: the shutdown reply first
   when shutting down, then the second half in the order FinishOrder states.
   */
  lemma HandleOrder(s: ConsumerState, tag: Tag, request: RequestId, sc: Script)
    ensures CallOrder(Handle(s, tag, request, false, sc).trace, |Preamble(s, tag)|, sc)
    ensures var t := Handle(s, tag, request, false, sc).trace;
      s.shuttingDown ==> |t| >= 3 && t[..3] == ShutdownReply
  {
    var pre := Preamble(s, tag);
    var fin := Finish(Track(s, tag, request), Delivery(tag, request, pre), sc).trace;
    HandleSplit(s, tag, request, sc);
    PreambleStart(s, tag);
    FinishOrder(Track(s, tag, request), Delivery(tag, request, pre), sc);
    CallOrderShift(pre, fin, sc);
    if s.shuttingDown {
      assert (pre + fin)[..3] == pre[..3];
    }
  }

  /** A Handle call whose shutdown branch does not throw is its preamble followed by Finish. */
  lemma HandleSplit(s: ConsumerState, tag: Tag, request: RequestId, sc: Script)
    ensures Handle(s, tag, request, false, sc).trace ==
      Preamble(s, tag) + Finish(Track(s, tag, request), Delivery(tag, request, Preamble(s, tag)), sc).trace
  {
  }

  /** The parts of an uninterrupted Handle call: preamble, try block, catch block, finally block. */
  lemma HandleParts(s: ConsumerState, tag: Tag, request: RequestId, sc: Script)
    ensures Handle(s, tag, request, false, sc).trace ==
      Preamble(s, tag) + (Tried(sc.fault) + Caught(sc) + Closing(Track(s, tag, request), sc))
  {
    HandleSplit(s, tag, request, sc);
  }

  /** The response built by the preamble, the try block and the catch block, step by step. */
  lemma ResponseSteps(shuttingDown: bool, sc: Script)
    ensures var r0 := if shuttingDown then Response(ServiceUnavailable, [ShuttingDownText]) else DefaultResponse;
      var r1 := if ReachesAccepted(sc.fault) then Response(Accepted, r0.body + [DeliveredText]) else r0;
      var r2 := if sc.fault != NoFault && !sc.receiveFaultThrows then Response(InternalServerError, r1.body + [ErrorText]) else r1;
      r2 == ExpectedResponse(shuttingDown, sc)
  {
  }

  lemma PreambleStart(s: ConsumerState, tag: Tag)
    ensures s.shuttingDown ==> |Preamble(s, tag)| >= 3 && Preamble(s, tag)[..3] == ShutdownReply
  {
  }

  /**
   The response a request gets once Handle ran uninterrupted: 202 "DELIVERED"
   on success, 500 "ERROR" after a fault; a request arriving during shutdown is
   still dispatched, so its 503 is overwritten and its body accumulates.
   */
  lemma HandleResponse(s: ConsumerState, tag: Tag, request: RequestId, sc: Script)
    ensures Respond(DefaultResponse, Handle(s, tag, request, false, sc).trace) == ExpectedResponse(s.shuttingDown, sc)
  {
    HandleParts(s, tag, request, sc);
    PartsResponse(s, tag, Track(s, tag, request), sc);
  }

  /** The response built by the parts of an uninterrupted Handle call. */
  lemma PartsResponse(s: ConsumerState, tag: Tag, t: ConsumerState, sc: Script)
    ensures Respond(DefaultResponse, Preamble(s, tag) + (Tried(sc.fault) + Caught(sc) + Closing(t, sc))) ==
      ExpectedResponse(s.shuttingDown, sc)
  {
    var pre := Preamble(s, tag);
    var tried := Tried(sc.fault);
    var caught := Caught(sc);
    var closing := Closing(t, sc);
    RespondConcat(DefaultResponse, pre, tried + caught + closing);
    RespondPreamble(s, tag);
    var r0 := Respond(DefaultResponse, pre);
    RespondConcat(r0, tried + caught, closing);
    RespondConcat(r0, tried, caught);
    RespondTried(r0, sc.fault);
    RespondCaught(Respond(r0, tried), sc);
    RespondIgnores(Respond(r0, tried + caught), closing);
    ResponseSteps(s.shuttingDown, sc);
  }

  lemma {:induction false} BodyStringConcat(a: seq<Text>, b: seq<Text>)
    ensures BodyString(a + b) == BodyString(a) + BodyString(b)
  {
    if |a| > 0 {
      assert (a + b)[0] == a[0] && (a + b)[1..] == a[1..] + b;
      BodyStringConcat(a[1..], b);
      var head, tail := Literal(a[0]), BodyString(a[1..]);
      assert BodyString(a + b) == head + (tail + BodyString(b));
      assert head + (tail + BodyString(b)) == (head + tail) + BodyString(b);
    } else {
      assert a + b == b;
    }
  }

  lemma BodyStringSingle(t: Text)
    ensures BodyString([t]) == Literal(t)
  {
    assert [t][1..] == [];
  }

  /**
   The characters of the response body once Handle ran uninterrupted: the
   shutdown notice, then the success text if the send reached its completion,
   then the error text if the catch block wrote it.
   */
  lemma HandleBodyText(s: ConsumerState, tag: Tag, request: RequestId, sc: Script)
    ensures BodyString(Respond(DefaultResponse, Handle(s, tag, request, false, sc).trace).body) ==
      (if s.shuttingDown then "SHUTTING DOWN" else "")
      + (if ReachesAccepted(sc.fault) then "DELIVERED" else "")
      + (if sc.fault != NoFault && !sc.receiveFaultThrows then "ERROR" else "")
  {
    HandleResponse(s, tag, request, sc);
    ExpectedBodyText(s.shuttingDown, sc);
  }

  lemma ExpectedBodyText(shuttingDown: bool, sc: Script)
    ensures BodyString(ExpectedResponse(shuttingDown, sc).body) ==
      (if shuttingDown then "SHUTTING DOWN" else "")
      + (if ReachesAccepted(sc.fault) then "DELIVERED" else "")
      + (if sc.fault != NoFault && !sc.receiveFaultThrows then "ERROR" else "")
  {
    var prefix: seq<Text> := if shuttingDown then [ShuttingDownText] else [];
    var delivered: seq<Text> := if ReachesAccepted(sc.fault) then [DeliveredText] else [];
    var error: seq<Text> := if sc.fault != NoFault && !sc.receiveFaultThrows then [ErrorText] else [];
    assert ExpectedResponse(shuttingDown, sc).body == prefix + delivered + error;
    BodyStringConcat(prefix + delivered, error);
    BodyStringConcat(prefix, delivered);
    BodyStringSingle(ShuttingDownText);
    BodyStringSingle(DeliveredText);
    BodyStringSingle(ErrorText);
    assert BodyString(prefix) == if shuttingDown then "SHUTTING DOWN" else "";
    assert BodyString(delivered) == if ReachesAccepted(sc.fault) then "DELIVERED" else "";
    assert BodyString(error) == if sc.fault != NoFault && !sc.receiveFaultThrows then "ERROR" else "";
  }



  /**
   `next()` runs once in the shutdown branch, once on the success path of the
   try block and once after the finally block unless an exception escapes the
   catch block.
   */
  lemma NextCalls(s: ConsumerState, tag: Tag, request: RequestId, sc: Script)
    ensures multiset(Handle(s, tag, request, false, sc).trace)[CallNext] ==
      (if s.shuttingDown then 1 else 0) + (if ReachesAccepted(sc.fault) then 1 else 0) + (if Escapes(sc) then 0 else 1)
  {
    HandleParts(s, tag, request, sc);
    PartsNextCalls(s, tag, Track(s, tag, request), sc);
  }

  /** The `next()` calls among the parts of an uninterrupted Handle call. */
  lemma PartsNextCalls(s: ConsumerState, tag: Tag, t: ConsumerState, sc: Script)
    ensures multiset(Preamble(s, tag) + (Tried(sc.fault) + Caught(sc) + Closing(t, sc)))[CallNext] ==
      (if s.shuttingDown then 1 else 0) + (if ReachesAccepted(sc.fault) then 1 else 0) + (if Escapes(sc) then 0 else 1)
  {
    var pre := Preamble(s, tag);
    var tried := Tried(sc.fault);
    var caught := Caught(sc);
    var closing := Closing(t, sc);
    CountConcat(pre, tried + caught + closing, CallNext);
    CountConcat(tried + caught, closing, CallNext);
    CountConcat(tried, caught, CallNext);
    PreambleNextCount(s, tag);
    TriedNextCount(sc.fault);
    assert CallNext !in caught;
    assert multiset(closing)[CallNext] == if Escapes(sc) then 0 else 1;
  }

  lemma PreambleNextCount(s: ConsumerState, tag: Tag)
    ensures multiset(Preamble(s, tag))[CallNext] == if s.shuttingDown then 1 else 0
  {
    var early := if s.shuttingDown then ShutdownReply else [];
    var dup := if tag in s.pending then [LogDuplicate(tag)] else [];
    assert Preamble(s, tag) == early + dup;
    assert CallNext !in dup;
    CountConcat(early, dup, CallNext);
    if s.shuttingDown {
      CountConcat([SetStatus(ServiceUnavailable), Write(ShuttingDownText)], [CallNext], CallNext);
    }
  }

  // ---------------------------------------------------------------------------
  // Stop
  // ---------------------------------------------------------------------------

  datatype StopOutcome = NothingPending | Drained | TimedOut

  datatype StopStart = StopStart(state: ConsumerState, waits: bool)

  /** Stop up to its wait: set the flag, and wait only while deliveries are pending. */
  function Stop(s: ConsumerState): (r: StopStart)
    ensures r.state.shuttingDown
    ensures r.waits <==> s.currentPending > 0
    ensures r.state.currentPending == s.currentPending && r.state.pending == s.pending
    ensures r.state.maxPending == s.maxPending && r.state.deliveryCount == s.deliveryCount
    ensures r.state.deliveryComplete == s.deliveryComplete
  {
    StopStart(s.(shuttingDown := true), s.currentPending > 0)
  }

  /**
   The wait on the drain signal, bounded by the 60-second timer. None: still
   waiting. A timeout is caught and logged, so no outcome is an exception.
   */
  function AwaitDrain(s: ConsumerState, timedOut: bool): (r: Option<StopOutcome>)
    ensures r == Some(Drained) <==> s.deliveryComplete
    ensures r == Some(TimedOut) <==> !s.deliveryComplete && timedOut
    ensures r != Some(NothingPending)
  {
    if s.deliveryComplete then Some(Drained)
    else if timedOut then Some(TimedOut)
    else None
  }

  // ---------------------------------------------------------------------------
  // Interleaving deliveries and Stop
  // ---------------------------------------------------------------------------

  datatype StopPhase = NotStopping | Waiting | Stopped(outcome: StopOutcome)

  /** One HttpConsumerAction together with its deliveries in flight and its Stop. */
  datatype System = System(state: ConsumerState, inFlight: seq<Delivery>, stop: StopPhase)

  const Start := System(Initial, [], NotStopping)

  datatype Event =
    | Arrive(tag: Tag, request: RequestId, nextThrows: bool)
    | Complete(index: nat, script: Script)
    | StopCalled
    | StopWakes(timedOut: bool)

  function RemoveAt<T>(s: seq<T>, i: nat): (r: seq<T>)
    requires i < |s|
    ensures |r| == |s| - 1
    ensures forall x :: x in r ==> x in s
  {
    s[..i] + s[i + 1..]
  }

  /** One atomic step; a completion naming no delivery in flight does nothing. */
  function Step(sys: System, e: Event): (r: System)
    ensures e.Arrive? ==> r.stop == sys.stop
    ensures e.Arrive? ==> (r == sys <==> sys.state.shuttingDown && e.nextThrows)
    ensures e.Arrive? && r != sys ==>
      && |r.inFlight| == |sys.inFlight| + 1
      && r.inFlight[..|sys.inFlight|] == sys.inFlight
      && r.inFlight[|sys.inFlight|].tag == e.tag
    ensures e.Complete? ==> r.stop == sys.stop
    ensures e.Complete? ==> (|r.inFlight| + 1 == |sys.inFlight| <==> e.index < |sys.inFlight|)
    ensures e.Complete? && e.index >= |sys.inFlight| ==> r == sys
    ensures e.StopCalled? ==> r.inFlight == sys.inFlight && r.state.shuttingDown
    ensures e.StopCalled? ==> (r.stop == Waiting <==> sys.state.currentPending > 0)
    ensures e.StopWakes? ==> r.inFlight == sys.inFlight && r.state == sys.state
    ensures e.StopWakes? && sys.stop != Waiting ==> r == sys
    ensures e.StopWakes? && sys.stop == Waiting ==>
      (r.stop == Stopped(Drained) <==> sys.state.deliveryComplete)
  {
    match e
    case Arrive(tag, request, nextThrows) =>
      (match Begin(sys.state, tag, request, nextThrows)
       case Aborted(_) => sys
       case Dispatching(t, d) => sys.(state := t, inFlight := sys.inFlight + [d]))
    case Complete(i, sc) =>
      if i < |sys.inFlight| then
        var f := Finish(sys.state, sys.inFlight[i], sc);
        sys.(state := f.state, inFlight := RemoveAt(sys.inFlight, i))
      else sys
    case StopCalled =>
      var st := Stop(sys.state);
      sys.(state := st.state, stop := if st.waits then Waiting else Stopped(NothingPending))
    case StopWakes(timedOut) =>
      if sys.stop == Waiting then
        match AwaitDrain(sys.state, timedOut)
        case None => sys
        case Some(o) => sys.(stop := Stopped(o))
      else sys
  }

  function Run(sys: System, events: seq<Event>): System
    decreases |events|
  {
    if |events| == 0 then sys else Run(Step(sys, events[0]), events[1..])
  }

  /** A tag is in the pending map only while a delivery carrying it is in flight. */
  ghost predicate TracksInFlight(sys: System) {
    forall t :: t in sys.state.pending ==> exists d :: d in sys.inFlight && d.tag == t
  }

  ghost predicate Valid(sys: System) {
    && sys.state.currentPending == |sys.inFlight|
    && sys.state.maxPending >= sys.state.currentPending
    && sys.state.deliveryCount >= sys.state.currentPending
    && TracksInFlight(sys)
    && (sys.state.deliveryComplete ==> sys.state.shuttingDown)
    && (sys.stop != NotStopping ==> sys.state.shuttingDown)
  }

  /** What no step ever undoes. */
  ghost predicate Grows(a: System, b: System) {
    && a.state.maxPending <= b.state.maxPending
    && a.state.deliveryCount <= b.state.deliveryCount
    && (a.state.shuttingDown ==> b.state.shuttingDown)
    && (a.state.deliveryComplete ==> b.state.deliveryComplete)
  }

  lemma StepValid(sys: System, e: Event)
    requires Valid(sys)
    ensures Valid(Step(sys, e))
    ensures Grows(sys, Step(sys, e))
  {
    match e {
      case Arrive(tag, request, nextThrows) =>
        if !(sys.state.shuttingDown && nextThrows) {
          ArriveValid(sys, tag, request);
        }
      case Complete(i, sc) =>
        if i < |sys.inFlight| {
          CompleteValid(sys, i, sc);
        }
      case StopCalled =>
      case StopWakes(_) =>
    }
  }

  lemma ArriveValid(sys: System, tag: Tag, request: RequestId)
    requires Valid(sys)
    ensures var next := System(Track(sys.state, tag, request),
                               sys.inFlight + [Delivery(tag, request, Preamble(sys.state, tag))], sys.stop);
      Valid(next) && Grows(sys, next)
  {
    var d := Delivery(tag, request, Preamble(sys.state, tag));
    var next := System(Track(sys.state, tag, request), sys.inFlight + [d], sys.stop);
    forall t | t in next.state.pending
      ensures exists x :: x in next.inFlight && x.tag == t
    {
      if t == tag {
        assert d in next.inFlight;
      } else {
        var x :| x in sys.inFlight && x.tag == t;
        assert x in next.inFlight;
      }
    }
  }

  lemma CompleteValid(sys: System, i: nat, sc: Script)
    requires Valid(sys)
    requires i < |sys.inFlight|
    ensures var next := System(Finish(sys.state, sys.inFlight[i], sc).state, RemoveAt(sys.inFlight, i), sys.stop);
      Valid(next) && Grows(sys, next)
  {
    var gone := sys.inFlight[i];
    var next := System(Release(sys.state, gone.tag), RemoveAt(sys.inFlight, i), sys.stop);
    assert sys.inFlight == sys.inFlight[..i] + [gone] + sys.inFlight[i + 1..];
    forall t | t in next.state.pending
      ensures exists x :: x in next.inFlight && x.tag == t
    {
      var x :| x in sys.inFlight && x.tag == t;
      assert t != gone.tag;
      assert x in next.inFlight;
    }
  }

  /** Every reachable system is Valid, and its maximum never fell below a pending count. */
  lemma {:induction false} RunValid(sys: System, events: seq<Event>)
    requires Valid(sys)
    ensures Valid(Run(sys, events))
    ensures Grows(sys, Run(sys, events))
    decreases |events|
  {
    if |events| > 0 {
      StepValid(sys, events[0]);
      RunValid(Step(sys, events[0]), events[1..]);
    }
  }

  lemma StartValid()
    ensures Valid(Start)
  {
  }

  function Tags(inFlight: seq<Delivery>): set<Tag> {
    set d | d in inFlight :: d.tag
  }

  ghost predicate DistinctTags(inFlight: seq<Delivery>) {
    forall i, j :: 0 <= i < j < |inFlight| ==> inFlight[i].tag != inFlight[j].tag
  }

  /** With unique tags, the pending map holds exactly the tags whose dispatch started and has not finished. */
  ghost predicate ExactTracking(sys: System) {
    DistinctTags(sys.inFlight) && sys.state.pending.Keys == Tags(sys.inFlight)
  }

  /** Exact tracking survives every step that does not reuse a tag in flight. */
  lemma StepExact(sys: System, e: Event)
    requires ExactTracking(sys)
    requires e.Arrive? ==> e.tag !in Tags(sys.inFlight)
    ensures ExactTracking(Step(sys, e))
  {
    match e {
      case Arrive(tag, request, nextThrows) =>
        if !(sys.state.shuttingDown && nextThrows) {
          ArriveExact(sys, tag, request);
        }
      case Complete(i, sc) =>
        if i < |sys.inFlight| {
          CompleteExact(sys, i);
        }
      case StopCalled =>
      case StopWakes(_) =>
    }
  }

  lemma ArriveExact(sys: System, tag: Tag, request: RequestId)
    requires ExactTracking(sys)
    requires tag !in Tags(sys.inFlight)
    ensures ExactTracking(System(Track(sys.state, tag, request),
                                 sys.inFlight + [Delivery(tag, request, Preamble(sys.state, tag))], sys.stop))
  {
    var d := Delivery(tag, request, Preamble(sys.state, tag));
    var all := sys.inFlight + [d];
    assert Tags(all) == Tags(sys.inFlight) + {tag} by {
      forall t | t in Tags(all) ensures t in Tags(sys.inFlight) + {tag} {
        var x :| x in all && x.tag == t;
      }
      forall t | t in Tags(sys.inFlight) + {tag} ensures t in Tags(all) {
        if t == tag {
          assert d in all;
        } else {
          var x :| x in sys.inFlight && x.tag == t;
          assert x in all;
        }
      }
    }
    forall i, j | 0 <= i < j < |all| ensures all[i].tag != all[j].tag {
      if j == |sys.inFlight| {
        assert sys.inFlight[i] in sys.inFlight;
      }
    }
  }

  lemma CompleteExact(sys: System, i: nat)
    requires ExactTracking(sys)
    requires i < |sys.inFlight|
    ensures ExactTracking(System(Release(sys.state, sys.inFlight[i].tag), RemoveAt(sys.inFlight, i), sys.stop))
  {
    RemoveAtDistinct(sys.inFlight, i);
    RemoveAtTags(sys.inFlight, i);
  }

  lemma RemoveAtDistinct(inFlight: seq<Delivery>, i: nat)
    requires DistinctTags(inFlight) && i < |inFlight|
    ensures DistinctTags(RemoveAt(inFlight, i))
  {
    var rest := RemoveAt(inFlight, i);
    forall a, b | 0 <= a < b < |rest| ensures rest[a].tag != rest[b].tag {
      var a' := if a < i then a else a + 1;
      var b' := if b < i then b else b + 1;
      assert rest[a] == inFlight[a'] && rest[b] == inFlight[b'];
    }
  }

  lemma RemoveAtTags(inFlight: seq<Delivery>, i: nat)
    requires DistinctTags(inFlight) && i < |inFlight|
    ensures Tags(RemoveAt(inFlight, i)) == Tags(inFlight) - {inFlight[i].tag}
  {
    var rest := RemoveAt(inFlight, i);
    forall t | t in Tags(rest) ensures t in Tags(inFlight) - {inFlight[i].tag} {
      var k :| 0 <= k < |rest| && rest[k].tag == t;
      var k' := if k < i then k else k + 1;
      assert rest[k] == inFlight[k'];
    }
    forall t | t in Tags(inFlight) - {inFlight[i].tag} ensures t in Tags(rest) {
      var k :| 0 <= k < |inFlight| && inFlight[k].tag == t;
      assert k != i;
      var k' := if k < i then k else k - 1;
      assert rest[k'] == inFlight[k];
    }
  }

  /** Completing the oldest delivery in flight once per script. */
  function Completions(scripts: seq<Script>): (events: seq<Event>)
    ensures |events| == |scripts|
    ensures forall k :: 0 <= k < |events| ==> events[k] == Complete(0, scripts[k])
    decreases |scripts|
  {
    if |scripts| == 0 then [] else [Complete(0, scripts[0])] + Completions(scripts[1..])
  }

  /** Completing every delivery in flight during shutdown sets the drain signal. */
  lemma {:induction false} DrainAfterAll(sys: System, scripts: seq<Script>)
    requires Valid(sys)
    requires sys.state.shuttingDown
    requires |scripts| == |sys.inFlight| > 0
    ensures Run(sys, Completions(scripts)).state.deliveryComplete
    decreases |scripts|
  {
    var events := Completions(scripts);
    var next := Step(sys, events[0]);
    StepValid(sys, events[0]);
    assert events[1..] == Completions(scripts[1..]);
    if |scripts| == 1 {
      assert next.state.deliveryComplete;
    } else {
      DrainAfterAll(next, scripts[1..]);
    }
  }

  /**
   One delivery in flight, then Stop, then the delivery completes: the stop
   wait ends drained, even if the timer fires at the same moment.
   */
  lemma StopDrainsInFlight(sc: Script)
    ensures Step(Step(Step(Step(Start, Arrive(1, 1, false)), StopCalled), Complete(0, sc)), StopWakes(true)).stop
            == Stopped(Drained)
  {
    var s1 := Step(Start, Arrive(1, 1, false));
    assert s1.state.currentPending == 1 && |s1.inFlight| == 1;
    var s2 := Step(s1, StopCalled);
    assert s2.stop == Waiting && s2.state.shuttingDown;
    var s3 := Step(s2, Complete(0, sc));
    assert s3.state.deliveryComplete;
  }

  /**
   A request arriving after Stop began is answered 503 first and then still
   dispatched: PreReceive runs and the final status is not 503.
   */
  lemma ShutdownDoesNotReturn(s: ConsumerState, tag: Tag, request: RequestId, sc: Script)
    requires s.shuttingDown
    ensures var h := Handle(s, tag, request, false, sc);
      && PreReceive in h.trace
      && h.state.deliveryCount == s.deliveryCount + 1
      && (!sc.receiveFaultThrows || ReachesAccepted(sc.fault) ==>
            Respond(DefaultResponse, h.trace).status != ServiceUnavailable)
  {
    HandleResponse(s, tag, request, sc);
  }

  // ---------------------------------------------------------------------------
  // The compare-exchange loop under contention
  // ---------------------------------------------------------------------------

  function Last(s: seq<int>): int
    requires |s| > 0
  {
    s[|s| - 1]
  }

  predicate NonDecreasing(s: seq<int>) {
    forall i, j :: 0 <= i < j < |s| ==> s[i] <= s[j]
  }

  /**
   The maximum-raising loop as written: while the count is above the field,
   it compare-exchanges the count into the field, with a fresh read of the
   field as the comparand. Here another delivery stores `racing` into the
   field between the loop's test and that second read. Returns the successive
   values of the field.
   */
  function RaiseMaxAsWritten(max: int, current: int, racing: Option<int>): (history: seq<int>)
    ensures |history| > 0 && history[0] == max
    ensures Last(history) >= current
  {
    if current <= max then [max]
    else
      match racing
      case None => [max, current]
      case Some(w) => [max, w, current]   // the comparand is w, so the exchange succeeds
  }

  /** A racing raise to 5 is overwritten with 3: the recorded maximum falls. */
  lemma AsWrittenLosesRaise()
    ensures RaiseMaxAsWritten(2, 3, Some(5)) == [2, 5, 3]
    ensures !NonDecreasing(RaiseMaxAsWritten(2, 3, Some(5)))
  {
    assert RaiseMaxAsWritten(2, 3, Some(5))[1] > RaiseMaxAsWritten(2, 3, Some(5))[2];
  }

  /**
   Compare-and-retry with the comparand taken from the value the loop compared:
   an exchange fails if the field moved, and the loop re-tests against the
   value the failed exchange returned.
   */
  function RaiseMaxCorrected(max: int, current: int, racing: Option<int>): (history: seq<int>)
    ensures |history| > 0 && history[0] == max
    ensures Last(history) >= current
    ensures current > max && racing.Some? ==> Last(history) >= racing.value
    ensures (racing.Some? ==> racing.value >= max) ==> NonDecreasing(history)
  {
    if current <= max then [max]
    else
      match racing
      case None => [max, current]
      case Some(w) => if current > w then [max, w, current] else [max, w]
  }

  /** Without contention the corrected loop is the atomic step the rest of the model uses. */
  lemma CorrectedIsAtomicRaise(max: int, current: int)
    ensures Last(RaiseMaxCorrected(max, current, None)) == RaiseMax(max, current)
  {
  }
}

=== FILE: kafka_consumer.dfy ===
/**
 The Kafka subscription of MassTransit.KafkaIntegration: one run of the pull
 loop started by `Subscribe`, the value `Subscribe` returns, and the cleanup
 sequence of `Unsubscribe`.

 The loop is driven by a script: for each pass of the loop body, what
 `Consume` yields and whether `Handle` and `Commit` throw. Cancellation is
 monotone, so it is given as the number of loop-head tests that find it not
 yet requested.
 */
module KafkaConsumer {
  import opened Wrappers

  /** Identifies one consume result (a record at a partition offset). */
  type Offset = nat

  /** The cancellation token an OperationCanceledException carries. */
  datatype Token =
    | LoopToken    // the linked token of the loop's own token source
    | OuterToken   // the token passed to Subscribe, which Handle receives
    | OtherToken

  /** An exception thrown inside the loop body. */
  datatype Failure = Canceled(token: Token) | Error

  datatype Consumed = Record(offset: Offset) | ConsumeThrew(failure: Failure)

  /** What the collaborators do during one pass of the loop body; None: the call completes. */
  datatype Round = Round(consume: Consumed, handle: Option<Failure>, commit: Option<Failure>)

  /** The calls the loop makes on the Kafka client and on the receiver. */
  datatype Action = Consume | Handle(offset: Offset) | Commit(offset: Offset)

  datatype LoopEnd =
    | Exited               // the loop head found cancellation requested
    | Faulted(failure: Failure)
    | Pulling              // the script ran out while the loop still runs
    | NotStarted           // the token given to Task.Run was cancelled before the body began

  /** The catch clause that swallows a cancellation carrying the loop's own token. */
  predicate Swallowed(f: Failure) {
    f == Canceled(LoopToken)
  }

  datatype Pass = Pass(actions: seq<Action>, thrown: Option<Failure>)

  /** One pass of the try block: Consume, Handle, and Commit unless auto-commit is on. */
  function Body(autoCommit: bool, r: Round): (p: Pass)
    ensures 1 <= |p.actions| <= 3 && p.actions[0] == Consume
    ensures forall k :: 1 <= k < |p.actions| ==> r.consume.Record? && !p.actions[k].Consume?
    ensures forall k :: 0 <= k < |p.actions| && p.actions[k].Commit? ==>
      && k == 2 && p.actions[1] == Handle(p.actions[k].offset)
      && r.consume == Record(p.actions[k].offset) && r.handle.None? && !autoCommit
    ensures r.consume.Record? && r.handle.None? && !autoCommit ==> Commit(r.consume.offset) in p.actions
    ensures r.consume.ConsumeThrew? ==> p.thrown == Some(r.consume.failure)
    ensures r.consume.Record? ==> |p.actions| >= 2 && p.actions[1] == Handle(r.consume.offset)
    ensures r.consume.Record? && r.handle.Some? ==> p.thrown == r.handle && |p.actions| == 2
    ensures r.consume.Record? && r.handle.None? && !autoCommit ==> p.thrown == r.commit
    ensures r.consume.Record? && r.handle.None? && autoCommit ==> p.thrown == None
    ensures p.thrown == Thrown(autoCommit, r)
  {
    match r.consume
    case ConsumeThrew(f) => Pass([Consume], Some(f))
    case Record(o) =>
      if r.handle.Some? then Pass([Consume, Handle(o)], r.handle)
      else if autoCommit then Pass([Consume, Handle(o)], None)
      else Pass([Consume, Handle(o), Commit(o)], r.commit)
  }

  /** The exception a pass ends with: Consume's, else Handle's, else Commit's when it commits. */
  function Thrown(autoCommit: bool, r: Round): Option<Failure> {
    match r.consume
    case ConsumeThrew(f) => Some(f)
    case Record(_) => if r.handle.Some? then r.handle else if autoCommit then None else r.commit
  }

  /** The pass throws an exception the loop logs and rethrows. */
  predicate Fatal(autoCommit: bool, r: Round) {
    var t := Thrown(autoCommit, r);
    t.Some? && !Swallowed(t.value)
  }

  predicate NoFatal(autoCommit: bool, rounds: seq<Round>) {
    forall k :: 0 <= k < |rounds| ==> !Fatal(autoCommit, rounds[k])
  }

  /** The calls made by the passes over `rounds`, one after the other. */
  function Actions(autoCommit: bool, rounds: seq<Round>): seq<Action>
    decreases |rounds|
  {
    if |rounds| == 0 then [] else Body(autoCommit, rounds[0]).actions + Actions(autoCommit, rounds[1..])
  }

  datatype Run = Run(trace: seq<Action>, end: LoopEnd, passes: nat)

  /** A faulted end carries the exception that the last of `passes` passes threw and did not swallow. */
  predicate FaultedBy(autoCommit: bool, rounds: seq<Round>, end: LoopEnd, passes: nat) {
    end.Faulted? ==>
      && 0 < passes <= |rounds|
      && Fatal(autoCommit, rounds[passes - 1])
      && Some(end.failure) == Thrown(autoCommit, rounds[passes - 1])
  }

  /**
   The loop from its head before pass `i`: test for cancellation, run the
   body, swallow a cancellation on the loop's own token, rethrow anything else.
   `passes` is the number of passes made in all.
   */
  function Loop(autoCommit: bool, rounds: seq<Round>, cancelAt: nat, i: nat): (r: Run)
    requires i <= |rounds|
    ensures i <= r.passes <= |rounds|
    ensures r.passes <= cancelAt || r.passes == i
    ensures r.trace == Actions(autoCommit, rounds[i..r.passes])
    ensures r.end.Faulted? ==> r.passes > i
    ensures FaultedBy(autoCommit, rounds, r.end, r.passes)
    ensures forall k :: i <= k < r.passes && (k < r.passes - 1 || !r.end.Faulted?) ==> !Fatal(autoCommit, rounds[k])
    ensures r.end == Exited ==> r.passes >= cancelAt
    ensures r.end == Pulling ==> r.passes == |rounds| < cancelAt
    ensures r.end != NotStarted
    decreases |rounds| - i
  {
    if i >= cancelAt then Run([], Exited, i)
    else if i == |rounds| then Run([], Pulling, i)
    else
      var p := Body(autoCommit, rounds[i]);
      if p.thrown.Some? && !Swallowed(p.thrown.value) then
        assert Fatal(autoCommit, rounds[i]) && p.thrown == Thrown(autoCommit, rounds[i]);
        ActionsStep(autoCommit, rounds, i, i + 1);
        Run(p.actions, Faulted(p.thrown.value), i + 1)
      else
        assert !Fatal(autoCommit, rounds[i]);
        var rest := Loop(autoCommit, rounds, cancelAt, i + 1);
        ActionsStep(autoCommit, rounds, i, rest.passes);
        Run(p.actions + rest.trace, rest.end, rest.passes)
  }

  /** The calls of the passes from `i` to `j` are those of pass `i` followed by the rest. */
  lemma ActionsStep(autoCommit: bool, rounds: seq<Round>, i: nat, j: nat)
    requires i < j <= |rounds|
    ensures Actions(autoCommit, rounds[i..j]) == Body(autoCommit, rounds[i]).actions + Actions(autoCommit, rounds[i + 1..j])
  {
    assert rounds[i..j][0] == rounds[i];
    assert rounds[i..j][1..] == rounds[i + 1..j];
  }

  /** One run of the loop body, from its first head test. */
  function PullLoop(autoCommit: bool, rounds: seq<Round>, cancelAt: nat): (r: Run)
    ensures r.passes <= cancelAt && r.passes <= |rounds|
    ensures r.trace == Actions(autoCommit, rounds[..r.passes])
    ensures r.end.Faulted? <==> r.passes > 0 && Fatal(autoCommit, rounds[r.passes - 1])
    ensures r.end.Faulted? ==> Some(r.end.failure) == Thrown(autoCommit, rounds[r.passes - 1])
    ensures forall k :: 0 <= k < r.passes - 1 ==> !Fatal(autoCommit, rounds[k])
    ensures r.end == Exited <==> r.passes == cancelAt && (r.passes == 0 || !Fatal(autoCommit, rounds[r.passes - 1]))
    ensures r.end == Pulling <==> r.passes == |rounds| < cancelAt && (r.passes == 0 || !Fatal(autoCommit, rounds[r.passes - 1]))
  {
    var r := Loop(autoCommit, rounds, cancelAt, 0);
    assert rounds[0..r.passes] == rounds[..r.passes];
    r
  }

  /**
   The loop's task as Subscribe starts it. Task.Run does not run the body when
   its token is cancelled before the body starts; otherwise the body runs from
   its first head test.
   */
  function StartLoop(canceledBeforeStart: bool, autoCommit: bool, rounds: seq<Round>, cancelAt: nat): (r: Run)
    ensures r.end == NotStarted <==> canceledBeforeStart
    ensures canceledBeforeStart ==> r.trace == [] && r.passes == 0
    ensures !canceledBeforeStart ==> r == PullLoop(autoCommit, rounds, cancelAt)
  {
    if canceledBeforeStart then Run([], NotStarted, 0) else PullLoop(autoCommit, rounds, cancelAt)
  }

  /**
   The scripts the source can produce. The loop's token source is private and
   stays cancelled once cancelled, so after Consume throws on that token the
   next head test finds the cancellation; Handle and Commit never receive that
   token, so they cannot throw on it.
   */
  predicate Feasible(rounds: seq<Round>, cancelAt: nat) {
    forall k :: 0 <= k < |rounds| ==>
      && (rounds[k].consume == ConsumeThrew(Canceled(LoopToken)) ==> cancelAt <= k + 1)
      && rounds[k].handle != Some(Canceled(LoopToken))
      && rounds[k].commit != Some(Canceled(LoopToken))
  }

  /**
   In a feasible script, a pass whose Consume throws on the loop's token is the
   last pass: the exception is swallowed and the loop exits at the next head test.
   */
  lemma SwallowedCancelEndsRun(autoCommit: bool, rounds: seq<Round>, cancelAt: nat, k: nat)
    requires Feasible(rounds, cancelAt)
    requires k < |rounds| && k < cancelAt
    requires forall j :: 0 <= j < k ==> !Fatal(autoCommit, rounds[j])
    requires rounds[k].consume == ConsumeThrew(Canceled(LoopToken))
    ensures var r := PullLoop(autoCommit, rounds, cancelAt);
      && r.passes == k + 1
      && r.end == Exited
      && r.trace == Actions(autoCommit, rounds[..k + 1])
  {
    var r := PullLoop(autoCommit, rounds, cancelAt);
    assert cancelAt == k + 1;
    assert !Fatal(autoCommit, rounds[k]);
    if r.passes <= k {
      assert false;
    }
  }

  // ---------------------------------------------------------------------------
  // Properties of the calls a run makes
  // ---------------------------------------------------------------------------

  /** Every pass makes exactly one Consume call. */
  lemma {:induction false} ConsumeCount(autoCommit: bool, rounds: seq<Round>)
    ensures multiset(Actions(autoCommit, rounds))[Consume] == |rounds|
    decreases |rounds|
  {
    if |rounds| > 0 {
      ConsumeCount(autoCommit, rounds[1..]);
      var p := Body(autoCommit, rounds[0]).actions;
      var rest := Actions(autoCommit, rounds[1..]);
      assert Actions(autoCommit, rounds) == p + rest;
      assert p == [Consume] + p[1..];
      assert Consume !in p[1..];
      assert multiset(p)[Consume] == 1 by {
        assert multiset(p) == multiset([Consume]) + multiset(p[1..]);
      }
      assert multiset(p + rest) == multiset(p) + multiset(rest);
    }
  }

  /** No Consume once the loop head has seen cancellation: at most one per uncancelled head test. */
  lemma ConsumesBeforeCancellation(autoCommit: bool, rounds: seq<Round>, cancelAt: nat)
    ensures multiset(PullLoop(autoCommit, rounds, cancelAt).trace)[Consume] <= cancelAt
  {
    var r := PullLoop(autoCommit, rounds, cancelAt);
    ConsumeCount(autoCommit, rounds[..r.passes]);
  }

  /** With auto-commit enabled the loop never commits. */
  lemma {:induction false} AutoCommitNeverCommits(rounds: seq<Round>)
    ensures forall a :: a in Actions(true, rounds) ==> !a.Commit?
    decreases |rounds|
  {
    if |rounds| > 0 {
      AutoCommitNeverCommits(rounds[1..]);
    }
  }

  /** Each Commit(o) in `t` comes right after Handle(o), which comes right after a Consume. */
  predicate CommitsFollowHandles(t: seq<Action>) {
    forall j :: 0 <= j < |t| && t[j].Commit? ==> j >= 2 && t[j - 1] == Handle(t[j].offset) && t[j - 2] == Consume
  }

  /** The loop commits a record only right after handling it. */
  lemma {:induction false} CommitFollowsHandle(autoCommit: bool, rounds: seq<Round>)
    ensures CommitsFollowHandles(Actions(autoCommit, rounds))
    decreases |rounds|
  {
    if |rounds| > 0 {
      CommitFollowsHandle(autoCommit, rounds[1..]);
      var p := Body(autoCommit, rounds[0]).actions;
      var t := Actions(autoCommit, rounds);
      var rest := Actions(autoCommit, rounds[1..]);
      assert t == p + rest;
      forall j | 0 <= j < |t| && t[j].Commit?
        ensures j >= 2 && t[j - 1] == Handle(t[j].offset) && t[j - 2] == Consume
      {
        if j >= |p| {
          var j' := j - |p|;
          assert rest[j'] == t[j] && rest[j'].Commit?;
          assert j' >= 2;
          assert t[j - 1] == rest[j' - 1] && t[j - 2] == rest[j' - 2];
        }
      }
    }
  }

  /** The offsets of the Commit calls in a trace, in order. */
  function Commits(t: seq<Action>): seq<Offset>
    decreases |t|
  {
    if |t| == 0 then []
    else (if t[0].Commit? then [t[0].offset] else []) + Commits(t[1..])
  }

  /**
   The records commit-after-processing promises to commit, in consumption
   order: those Consume returned and Handle completed, when auto-commit is off.
   */
  function Committable(autoCommit: bool, rounds: seq<Round>): seq<Offset>
    decreases |rounds|
  {
    if |rounds| == 0 || autoCommit then []
    else
      var r := rounds[0];
      (if r.consume.Record? && r.handle.None? then [r.consume.offset] else []) + Committable(autoCommit, rounds[1..])
  }

  lemma {:induction false} CommitsConcat(a: seq<Action>, b: seq<Action>)
    ensures Commits(a + b) == Commits(a) + Commits(b)
    decreases |a|
  {
    if |a| > 0 {
      assert (a + b)[0] == a[0];
      assert (a + b)[1..] == a[1..] + b;
      CommitsConcat(a[1..], b);
    } else {
      assert a + b == b;
    }
  }

  /**
   The loop commits exactly the records whose handling completed, in the order
   it consumed them; a record whose Handle threw is never committed.
   */
  lemma {:induction false} CommitsAreCommittable(autoCommit: bool, rounds: seq<Round>)
    ensures Commits(Actions(autoCommit, rounds)) == Committable(autoCommit, rounds)
    decreases |rounds|
  {
    if |rounds| > 0 {
      CommitsAreCommittable(autoCommit, rounds[1..]);
      var p := Body(autoCommit, rounds[0]).actions;
      CommitsConcat(p, Actions(autoCommit, rounds[1..]));
      var r := rounds[0];
      if r.consume.Record? {
        var o := r.consume.offset;
        if r.handle.None? && !autoCommit {
          assert p == [Consume, Handle(o), Commit(o)];
          assert Commits(p) == [o] by {
            assert p[1..][1..][1..] == [];
            assert Commits(p[1..][1..]) == [o];
            assert Commits(p[1..]) == [o];
          }
        } else {
          assert p == [Consume, Handle(o)];
          assert Commits(p) == [] by {
            assert p[1..][1..] == [];
            assert Commits(p[1..]) == [];
          }
        }
      } else {
        assert p == [Consume];
      }
      if autoCommit {
        AutoCommitNeverCommits(rounds);
        NoCommitsNoOffsets(Actions(autoCommit, rounds));
      }
    }
  }

  lemma {:induction false} NoCommitsNoOffsets(t: seq<Action>)
    requires forall a :: a in t ==> !a.Commit?
    ensures Commits(t) == []
    decreases |t|
  {
    if |t| > 0 {
      NoCommitsNoOffsets(t[1..]);
    }
  }

  /** The first pass that throws a fatal exception ends the run, provided no cancellation came before it. */
  lemma FirstFatalEndsRun(autoCommit: bool, rounds: seq<Round>, cancelAt: nat, m: nat)
    requires m < |rounds| && m < cancelAt
    requires forall k :: 0 <= k < m ==> !Fatal(autoCommit, rounds[k])
    requires Fatal(autoCommit, rounds[m])
    ensures PullLoop(autoCommit, rounds, cancelAt).passes == m + 1
    ensures PullLoop(autoCommit, rounds, cancelAt).end.Faulted?
  {
  }

  /**
   Cancelling while the loop waits in Consume makes Consume throw on the
   loop's own token; the exception is swallowed and the loop exits without
   faulting.
   */
  lemma CancelDuringConsumeExits(autoCommit: bool, before: seq<Round>, handle: Option<Failure>, commit: Option<Failure>)
    requires NoFatal(autoCommit, before)
    ensures var rounds := before + [Round(ConsumeThrew(Canceled(LoopToken)), handle, commit)];
      PullLoop(autoCommit, rounds, |before| + 1).end == Exited
  {
    var rounds := before + [Round(ConsumeThrew(Canceled(LoopToken)), handle, commit)];
    assert forall k :: 0 <= k < |rounds| ==> !Fatal(autoCommit, rounds[k]) by {
      forall k | 0 <= k < |rounds| ensures !Fatal(autoCommit, rounds[k]) {
        if k < |before| {
          assert rounds[k] == before[k];
        }
      }
    }
  }

  /**
   A pass that throws something the loop does not swallow, after passes that
   did not, is the last one: the loop faults with that exception.
   */
  lemma FaultingPassEnds(autoCommit: bool, before: seq<Round>, last: Round, cancelAt: nat)
    requires NoFatal(autoCommit, before)
    requires cancelAt > |before|
    requires Fatal(autoCommit, last)
    ensures var r := PullLoop(autoCommit, before + [last], cancelAt);
      && r.end == Faulted(Thrown(autoCommit, last).value)
      && r.trace == Actions(autoCommit, before) + Body(autoCommit, last).actions
  {
    var rounds := before + [last];
    forall k | 0 <= k < |before| ensures !Fatal(autoCommit, rounds[k]) {
      assert rounds[k] == before[k];
    }
    assert rounds[|before|] == last;
    FirstFatalEndsRun(autoCommit, rounds, cancelAt, |before|);
    assert rounds[..|before| + 1] == before + [last];
    ActionsConcat(autoCommit, before, [last]);
    assert Actions(autoCommit, [last]) == Body(autoCommit, last).actions by {
      assert [last][1..] == [];
    }
  }

  /**
   A cancellation raised by Handle on the outer token is not the loop's own:
   the loop faults, and the record is not committed.
   */
  lemma OuterCancellationFaults(autoCommit: bool, before: seq<Round>, o: Offset, commit: Option<Failure>, cancelAt: nat)
    requires NoFatal(autoCommit, before)
    requires cancelAt > |before|
    ensures var rounds := before + [Round(Record(o), Some(Canceled(OuterToken)), commit)];
      var r := PullLoop(autoCommit, rounds, cancelAt);
      && r.end == Faulted(Canceled(OuterToken))
      && r.trace == Actions(autoCommit, before) + [Consume, Handle(o)]
  {
    var last := Round(Record(o), Some(Canceled(OuterToken)), commit);
    assert Body(autoCommit, last) == Pass([Consume, Handle(o)], Some(Canceled(OuterToken)));
    FaultingPassEnds(autoCommit, before, last, cancelAt);
  }

  /** A handler that throws ends the loop with its exception, and the record is not committed. */
  lemma HandleErrorFaults(autoCommit: bool, before: seq<Round>, o: Offset, commit: Option<Failure>, cancelAt: nat)
    requires NoFatal(autoCommit, before)
    requires cancelAt > |before|
    ensures var rounds := before + [Round(Record(o), Some(Error), commit)];
      var r := PullLoop(autoCommit, rounds, cancelAt);
      && r.end == Faulted(Error)
      && r.trace == Actions(autoCommit, before) + [Consume, Handle(o)]
  {
    var last := Round(Record(o), Some(Error), commit);
    assert Body(autoCommit, last) == Pass([Consume, Handle(o)], Some(Error));
    FaultingPassEnds(autoCommit, before, last, cancelAt);
  }

  /** A commit that fails after the record was handled ends the loop with that failure. */
  lemma CommitErrorFaults(before: seq<Round>, o: Offset, cancelAt: nat)
    requires NoFatal(false, before)
    requires cancelAt > |before|
    ensures var rounds := before + [Round(Record(o), None, Some(Error))];
      var r := PullLoop(false, rounds, cancelAt);
      && r.end == Faulted(Error)
      && r.trace == Actions(false, before) + [Consume, Handle(o), Commit(o)]
  {
    var last := Round(Record(o), None, Some(Error));
    assert Body(false, last) == Pass([Consume, Handle(o), Commit(o)], Some(Error));
    FaultingPassEnds(false, before, last, cancelAt);
  }

  lemma {:induction false} ActionsConcat(autoCommit: bool, a: seq<Round>, b: seq<Round>)
    ensures Actions(autoCommit, a + b) == Actions(autoCommit, a) + Actions(autoCommit, b)
    decreases |a|
  {
    if |a| > 0 {
      assert (a + b)[0] == a[0];
      assert (a + b)[1..] == a[1..] + b;
      ActionsConcat(autoCommit, a[1..], b);
    } else {
      assert a + b == b;
    }
  }

  // ---------------------------------------------------------------------------
  // Subscribe and Unsubscribe
  // ---------------------------------------------------------------------------

  datatype Completion = RanToCompletion | TaskFaulted | TaskCanceled

  datatype TaskStatus = Running | Done(completion: Completion)

  /**
   The status of the loop's task once the run ended as `end`. The loop is an
   async lambda: an OperationCanceledException leaving it ends the task as
   canceled rather than faulted.
   */
  function LoopTask(end: LoopEnd): (t: TaskStatus)
    ensures t.Done? <==> end != Pulling
    ensures t == Done(RanToCompletion) <==> end == Exited
    ensures t == Done(TaskCanceled) <==> end == NotStarted || (end.Faulted? && end.failure.Canceled?)
    ensures t == Done(TaskFaulted) <==> end == Faulted(Error)
  {
    match end
    case Exited => Done(RanToCompletion)
    case Faulted(Canceled(_)) => Done(TaskCanceled)
    case Faulted(Error) => Done(TaskFaulted)
    case Pulling => Running
    case NotStarted => Done(TaskCanceled)
  }

  datatype ClientCall = SubscribeTopic(topic: string)

  datatype Subscribed = Subscribed(calls: seq<ClientCall>, returned: Completion)

  /**
   Subscribe starts the loop, subscribes the client to the topic once, and
   returns the loop's task only if that task has already completed.
   */
  function Subscribe(topic: string, loop: TaskStatus): (r: Subscribed)
    ensures multiset(r.calls)[SubscribeTopic(topic)] == 1 && |r.calls| == 1
    ensures r.returned == TaskFaulted <==> loop == Done(TaskFaulted)
    ensures r.returned == TaskCanceled <==> loop == Done(TaskCanceled)
    ensures loop == Running ==> r.returned == RanToCompletion
  {
    Subscribed([SubscribeTopic(topic)], if loop.Done? then loop.completion else RanToCompletion)
  }

  /**
   What Subscribe hands back, related to the run of the loop it started: a
   faulted task exactly when the loop rethrew an ordinary exception; a
   canceled task exactly when the body never started or the loop rethrew a
   cancellation that was not its own; a completed task otherwise.
   */
  lemma SubscribeReportsRun(topic: string, canceledBeforeStart: bool, autoCommit: bool, rounds: seq<Round>, cancelAt: nat)
    ensures var end := StartLoop(canceledBeforeStart, autoCommit, rounds, cancelAt).end;
      var s := Subscribe(topic, LoopTask(end));
      && (s.returned == TaskFaulted <==> end == Faulted(Error))
      && (s.returned == TaskCanceled <==> canceledBeforeStart || (end.Faulted? && end.failure.Canceled?))
      && (s.returned == RanToCompletion <==> end == Exited || end == Pulling)
      && (s.returned == TaskCanceled && !canceledBeforeStart ==> end.failure.token != LoopToken)
  {
    var r := StartLoop(canceledBeforeStart, autoCommit, rounds, cancelAt);
    if r.end.Faulted? {
      assert Fatal(autoCommit, rounds[r.passes - 1]);
    }
  }

  /** The statements of Unsubscribe's try block, in order. */
  datatype CleanupStep = CancelLoop | AwaitLoop | CloseClient | DisposeClient | DisposeTokenSource

  const Cleanup: seq<CleanupStep> := [CancelLoop, AwaitLoop, CloseClient, DisposeClient, DisposeTokenSource]

  /** Awaiting a faulted or canceled loop rethrows; any step listed in `throwing` throws. */
  predicate Throws(step: CleanupStep, loop: Completion, throwing: set<CleanupStep>) {
    step in throwing || (step == AwaitLoop && loop != RanToCompletion)
  }

  /** Steps run, and whether the catch block logged an exception. */
  datatype Unsubscribed = Unsubscribed(steps: seq<CleanupStep>, logged: bool)

  /** Runs `steps` in order until one throws; the exception is caught and logged. */
  function RunCleanup(steps: seq<CleanupStep>, loop: Completion, throwing: set<CleanupStep>): (r: Unsubscribed)
    ensures |r.steps| <= |steps| && r.steps == steps[..|r.steps|]
    ensures r.logged <==> exists k :: 0 <= k < |steps| && Throws(steps[k], loop, throwing)
    ensures r.logged ==> |r.steps| > 0 && Throws(r.steps[|r.steps| - 1], loop, throwing)
    ensures forall k :: 0 <= k < |r.steps| - 1 ==> !Throws(r.steps[k], loop, throwing)
    ensures !r.logged ==> r.steps == steps
    decreases |steps|
  {
    if |steps| == 0 then Unsubscribed([], false)
    else if Throws(steps[0], loop, throwing) then Unsubscribed([steps[0]], true)
    else
      var rest := RunCleanup(steps[1..], loop, throwing);
      assert steps == [steps[0]] + steps[1..];
      Unsubscribed([steps[0]] + rest.steps, rest.logged)
  }

  /**
   Unsubscribe with the loop's task completing as `loop` once cancelled: it
   never throws, runs the cleanup steps in order, and stops at the first one
   that throws.
   */
  function Unsubscribe(loop: Completion, throwing: set<CleanupStep>): (r: Unsubscribed)
    ensures 1 <= |r.steps| <= |Cleanup| && r.steps == Cleanup[..|r.steps|]
    ensures CloseClient in r.steps ==> loop == RanToCompletion
    ensures !r.logged ==> r.steps == Cleanup
  {
    RunCleanup(Cleanup, loop, throwing)
  }

  /** A loop that faulted makes the await rethrow, so the client is neither closed nor disposed. */
  lemma FaultedLoopSkipsRelease(throwing: set<CleanupStep>)
    requires CancelLoop !in throwing
    ensures Unsubscribe(TaskFaulted, throwing) == Unsubscribed([CancelLoop, AwaitLoop], true)
  {
    assert !Throws(Cleanup[0], TaskFaulted, throwing);
    assert Throws(Cleanup[1], TaskFaulted, throwing);
  }

  /** With no step throwing and a loop that exited normally, every cleanup step runs and nothing is logged. */
  lemma CleanUnsubscribe()
    ensures Unsubscribe(RanToCompletion, {}) == Unsubscribed(Cleanup, false)
  {
    assert forall k :: 0 <= k < |Cleanup| ==> !Throws(Cleanup[k], RanToCompletion, {});
  }

  /**
   Unsubscribing after a run: the client is closed only when the loop exited
   at a cancellation test; a run that ended in an exception, or whose body
   never started, leaves it open.
   */
  lemma UnsubscribeAfterRun(canceledBeforeStart: bool, autoCommit: bool, rounds: seq<Round>, cancelAt: nat, throwing: set<CleanupStep>)
    requires StartLoop(canceledBeforeStart, autoCommit, rounds, cancelAt).end != Pulling
    ensures var end := StartLoop(canceledBeforeStart, autoCommit, rounds, cancelAt).end;
      CloseClient in Unsubscribe(LoopTask(end).completion, throwing).steps ==> end == Exited
  {
  }

  /**
   A loop task canceled before its body started makes Unsubscribe's await
   rethrow: the client is never closed or disposed, although no pass ran.
   */
  lemma NotStartedSkipsRelease(autoCommit: bool, rounds: seq<Round>, cancelAt: nat, throwing: set<CleanupStep>)
    requires CancelLoop !in throwing
    ensures var end := StartLoop(true, autoCommit, rounds, cancelAt).end;
      Unsubscribe(LoopTask(end).completion, throwing) == Unsubscribed([CancelLoop, AwaitLoop], true)
  {
    assert !Throws(Cleanup[0], TaskCanceled, throwing);
    assert Throws(Cleanup[1], TaskCanceled, throwing);
  }
}

=== FILE: sequences.dfy ===
/**
 Order-preserving sequence operations with the semantics of the LINQ
 operators the registration code relies on: `Where`, `Distinct`, `Union`
 (distinct elements of the first sequence, then of the second, in first
 occurrence order) and `Except` (distinct elements of the first sequence that
 do not occur in the second).
 */
module Sequences {

  predicate NoDuplicates<T(==)>(s: seq<T>) {
    forall i, j :: 0 <= i < j < |s| ==> s[i] != s[j]
  }

  /** `Where`: the elements of `s` satisfying `p`, in their original order. */
  function Filter<T(==,!new)>(s: seq<T>, p: T -> bool): (r: seq<T>)
    ensures |r| <= |s|
    ensures forall x :: x in r <==> x in s && p(x)
  {
    if |s| == 0 then []
    else (if p(s[0]) then [s[0]] else []) + Filter(s[1..], p)
  }

  /** The count of `y` in a sequence with `x` in front. */
  lemma CountCons<T>(x: T, s: seq<T>, y: T)
    ensures multiset([x] + s)[y] == (if x == y then 1 else 0) + multiset(s)[y]
  {
    assert multiset([x] + s) == multiset([x]) + multiset(s);
  }

  /** The count of `y` in a non-empty sequence, split at its first element. */
  lemma CountFirst<T>(s: seq<T>, y: T)
    requires |s| > 0
    ensures multiset(s)[y] == (if s[0] == y then 1 else 0) + multiset(s[1..])[y]
  {
    assert s == [s[0]] + s[1..];
    CountCons(s[0], s[1..], y);
  }

  /** `Select`. */
  function Map<T, U>(s: seq<T>, f: T -> U): (r: seq<U>)
    ensures |r| == |s|
    ensures forall i :: 0 <= i < |s| ==> r[i] == f(s[i])
  {
    seq(|s|, i requires 0 <= i < |s| => f(s[i]))
  }

  /** `SelectMany`: the sequences `f(x)` for the elements `x` of `s`, one after the other. */
  function FlatMap<T(==), U(==)>(s: seq<T>, f: T -> seq<U>): (r: seq<U>)
    ensures forall x, u :: x in s && u in f(x) ==> u in r
    ensures forall u :: u in r ==> exists x :: x in s && u in f(x)
    decreases |s|
  {
    if |s| == 0 then []
    else
      var rest := FlatMap(s[1..], f);
      assert forall x :: x in s ==> x == s[0] || x in s[1..];
      assert forall x :: x in s[1..] ==> x in s;
      f(s[0]) + rest
  }

  /** `Distinct`: the first occurrence of every element, in order. */
  function Distinct<T(==,!new)>(s: seq<T>): (r: seq<T>)
    ensures NoDuplicates(r)
    ensures forall x :: x in r <==> x in s
    decreases |s|
  {
    if |s| == 0 then []
    else
      var init := s[..|s| - 1];
      assert s == init + [s[|s| - 1]];
      var d := Distinct(init);
      if s[|s| - 1] in d then d else d + [s[|s| - 1]]
  }

  /** `a.Union(b)`. */
  function Union<T(==,!new)>(a: seq<T>, b: seq<T>): (r: seq<T>)
    ensures NoDuplicates(r)
    ensures forall x :: x in r <==> x in a || x in b
  {
    Distinct(a + b)
  }

  /** `Where` keeps order: filtering a concatenation concatenates the filtered parts. */
  lemma {:induction false} FilterConcat<T(!new)>(a: seq<T>, b: seq<T>, p: T -> bool)
    ensures Filter(a + b, p) == Filter(a, p) + Filter(b, p)
    decreases |a|
  {
    if |a| == 0 {
      assert a + b == b;
    } else {
      assert (a + b)[1..] == a[1..] + b;
      FilterConcat(a[1..], b, p);
    }
  }

  /** Filtering a sequence with one more element at the end. */
  lemma FilterLast<T(!new)>(s: seq<T>, x: T, p: T -> bool)
    ensures Filter(s + [x], p) == Filter(s, p) + (if p(x) then [x] else [])
  {
    FilterConcat(s, [x], p);
    assert [x][1..] == [];
  }

  /** `Distinct` of a sequence with one more element at the end. */
  lemma DistinctSnoc<T(!new)>(s: seq<T>, x: T)
    ensures Distinct(s + [x]) == if x in Distinct(s) then Distinct(s) else Distinct(s) + [x]
  {
    assert (s + [x])[..|s + [x]| - 1] == s;
  }

  /**
   First-occurrence order: the distinct elements of `a + b` are those of `a`,
   followed by the new elements of `b` in their own first-occurrence order.
   */
  lemma {:induction false} DistinctConcat<T(!new)>(a: seq<T>, b: seq<T>)
    ensures Distinct(a + b) == Distinct(a) + Except(b, a)
    decreases |b|
  {
    if |b| == 0 {
      assert a + b == a;
      assert Except(b, a) == Distinct(Filter(b, NotIn(a))) == [];
    } else {
      var init, x := b[..|b| - 1], b[|b| - 1];
      assert b == init + [x];
      assert a + b == (a + init) + [x];
      DistinctConcat(a, init);
      DistinctConcatStep(a, init, x);
    }
  }

  /** The inductive step of DistinctConcat: one more element at the end of `b`. */
  lemma DistinctConcatStep<T(!new)>(a: seq<T>, init: seq<T>, x: T)
    requires Distinct(a + init) == Distinct(a) + Except(init, a)
    ensures Distinct((a + init) + [x]) == Distinct(a) + Except(init + [x], a)
  {
    var d, e := Distinct(a), Except(init, a);
    DistinctSnoc(a + init, x);
    ExceptSnoc(init, x, a);
    if x in a {
      assert x in d;
      assert x in d + e;
    } else if x in e {
      assert x in d + e;
    } else {
      assert x !in d;
      assert x !in d + e;
      assert d + e + [x] == d + (e + [x]);
    }
  }

  /** `Except` of a sequence with one more element at the end. */
  lemma ExceptSnoc<T(!new)>(s: seq<T>, x: T, b: seq<T>)
    ensures Except(s + [x], b) ==
      if x in b || x in Except(s, b) then Except(s, b) else Except(s, b) + [x]
  {
    var q := NotIn(b);
    FilterLast(s, x, q);
    if x !in b {
      DistinctSnoc(Filter(s, q), x);
    } else {
      assert Filter(s + [x], q) == Filter(s, q);
    }
  }

  /** `Union` lists the distinct elements of `a`, then those of `b` not in `a`. */
  lemma UnionOrder<T(!new)>(a: seq<T>, b: seq<T>)
    ensures Union(a, b) == Distinct(a) + Except(b, a)
  {
    DistinctConcat(a, b);
  }

  /** The test "does not occur in `b`". */
  function NotIn<T(==)>(b: seq<T>): T -> bool {
    x => x !in b
  }

  /** `a.Except(b)`. */
  function Except<T(==,!new)>(a: seq<T>, b: seq<T>): (r: seq<T>)
    ensures NoDuplicates(r)
    ensures forall x :: x in r <==> x in a && x !in b
  {
    Distinct(Filter(a, NotIn(b)))
  }
}

=== FILE: wrappers.dfy ===
/** Optional values: the model's stand-in for the source's nullable references. */
module Wrappers {

  datatype Option<+T> = None | Some(value: T) {

    /** Returns the value held in Some, or the default when None (the `??` operator). */
    function GetOr(default: T): T {
      match this
      case Some(v) => v
      case None => default
    }
  }
}
